=== FILE: README.md ===
# Sygl credit metering and generation dispatch, in Dafny

Sygl is a web service that generates logos from a text prompt. Users hold a
balance of credits. A tier can instead grant an unlimited balance, written
as the sentinel `-1`. Each generation is charged by model: 1 credit for the
baseline model (`gemini-2.5`) and 3 for the premium one (`ideogram`).

This project models the part of the service that meters credits and runs
generations:

- **pricing**: the cost table, the tier table, the affordability rule and
  the generations estimate;
- **the two provider adapters**: how each builds its request and maps every
  outcome of the outside call to a result;
- **the lazily created premium-model client**;
- **the dispatcher**: it routes a request to an adapter and normalises the
  result;
- **the generation endpoint**: it validates, authenticates, checks the
  balance, inserts a pending record, dispatches, and then completes or
  fails the record and deducts the balance;
- **the balance endpoint**: a read-only report;
- **the placeholder-image endpoint**.

Everything outside the process becomes a parameter:

- the HTTP call, as `fetch`;
- the text-model SDK, as `sdk`;
- `encodeURIComponent`, as `encode`;
- the clock and `Math.random`, as a `Stamp`;
- whether the database insert succeeds, and what the adapter call does, in
  the `Env` of a request.

The database is a `Store` value:

- `sessions`: the tokens the authentication service accepts, each with its
  user;
- `users`: the user rows;
- `records`: the generation records, by id;
- `nextId`: a counter that hands out record ids.

The generation endpoint comes in two forms:

- `GenerateRoute.Handle`, a function from a store and a request to a
  response and a new store;
- `GenerateRoute.GenerationService`, a class whose fields are those maps.
  Its `Post` method updates them step by step and is proved to do exactly
  what `Handle` says.

Over any sequence of requests, the model proves:

- no request leaves a record pending;
- an unlimited balance stays unlimited;
- a finite balance never drops below zero;
- each balance drops by exactly the credits charged by that user's
  completed records.

Files, one module each:

- `common.dfy`: optional values, thrown values, and the JavaScript string
  behaviour used (`||` defaults, `join`, number printing, `trim`);
- `pricing.dfy`;
- `ai_types.dfy`: the types the two adapters share;
- `ideogram.dfy`;
- `gemini.dfy`;
- `dispatcher.dfy`;
- `database.dfy`: the store and the bearer-token authentication;
- `generate_route.dfy`;
- `credits_route.dfy`;
- `placeholder_logo.dfy`.

Where a comment in the source and the code disagree, the model follows the
code:

- **Credits on a returned failure.** src/lib/ai/index.ts:69 comments
  "Don't charge credits for failed generations". Yet lines 31 and 56-63 give
  an adapter result that is *returned* with `success: false` the model's
  cost as `creditsUsed`. Only a thrown error or an unknown model gives 0.
  `Dispatcher.CreditsUsedRule` states what the code does.
- **No balance is lost either way.** The generation endpoint ignores
  `creditsUsed`. It deducts the record's own cost, and only on success.
  `GenerateRoute.ReconcileEffect` and `GenerateRoute.RunLedger` prove this.

## Model

| member | source | states |
|---|---|---|
| Common.MessageOf | src/lib/ai/index.ts:68 | what every catch reports: an Error's own message, and "Unknown error occurred" for any other thrown value |
| Common.Join | src/lib/ai/gemini.ts:42 | `join`: an empty list gives the empty text, one piece gives that piece; otherwise the text starts with the first piece and ends with the last |
| Common.JoinSnoc | src/lib/ai/gemini.ts:42 | appending a piece appends the separator and that piece, so the separator stands between every two neighbouring pieces |
| Common.JoinStartsWithFirstTwo | src/lib/ai/gemini.ts:42 | a join of three or more pieces starts with the first piece, the separator, the second piece and the separator |
| Common.Trim | src/lib/ai/gemini.ts:54 | `trim`: no longer than the text, neither starts nor ends with whitespace, and leaves a text with no whitespace as it is; a text of whitespace alone becomes empty |
| Common.OrDefault | src/lib/ai/gemini.ts:40-43 | `s \|\| d` on an optional string: the default for an absent or empty value, otherwise the value itself; a non-empty default never gives an empty text |
| Common.NatToStringRoundTrip | src/lib/ai/ideogram.ts:53 | the decimal text of a status code reads back as that number, so an error message loses nothing |
| Common.TrimPadded | src/lib/ai/gemini.ts:37-54 | `trim` of a text padded with whitespace returns the text itself, provided it starts and ends with a visible character |
| Pricing.ParseModel | src/lib/pricing.ts:1-4 | exactly the two model identifiers are recognised, each as its own model |
| Pricing.CreditCost | src/lib/pricing.ts:1-4 | every model's cost is positive: 1 credit for the baseline model, 3 for the premium one |
| Pricing.PremiumCostsThreeTimesBaseline | src/lib/pricing.ts:1-4 | the premium model costs exactly three times the baseline |
| Pricing.Plan | src/lib/pricing.ts:6-75 | only the enterprise tier carries the unlimited sentinel, only the pro tier is flagged popular, and every tier lists at least two features |
| Pricing.CalculateGenerations | src/lib/pricing.ts:80-83 | the sentinel passes through; a finite balance gives the largest g with g·cost ≤ credits |
| Pricing.CanAffordGeneration | src/lib/pricing.ts:85-88 | the sentinel affords every model; any other balance affords a model iff it is at least the cost |
| Pricing.AffordableIffOneGeneration | src/lib/pricing.ts:80-88 | for a finite balance, affordable iff the estimate is at least one generation |
| Pricing.PremiumAffordableImpliesBaseline | src/lib/pricing.ts:85-88 | a balance that affords the premium model affords the baseline one |
| Pricing.AdvertisedCountsMatchPricing | src/lib/pricing.ts:10-47 | the counts the basic, pro and studio tiers advertise (50/~16, 150/~50, 500/~166) are the estimate for their monthly credits |
| Pricing.EnterpriseIsUnlimited | src/lib/pricing.ts:57-74 | the enterprise tier's balance estimates to the sentinel and affords every model |
| AiTypes.ParseFormat | src/app/api/generate/route.ts:12 | exactly the three format names are recognised |
| AiTypes.ParseAspectRatio | src/app/api/generate/route.ts:14 | exactly the five aspect-ratio names are recognised |
| AiTypes.GenerationId | src/lib/ai/ideogram.ts:60 | an id starts with the adapter's prefix, an underscore, the decimal clock reading and another underscore, and ends with the random part |
| Ideogram.EnhanceLogoPrompt | src/lib/ai/ideogram.ts:86-92 | the enhanced prompt starts with "Professional logo design: " followed by the original, and the original can be cut back out |
| Ideogram.EnhanceLogoPromptInjective | src/lib/ai/ideogram.ts:86-92 | different prompts give different enhanced prompts |
| Ideogram.BuildImageRequest | src/lib/ai/ideogram.ts:33-41 | the user's prompt can be recovered from the prompt sent, and the style sent is never empty |
| Ideogram.PayloadDefaults | src/lib/ai/ideogram.ts:33-41 | supplied options reach the payload unchanged; absent ones become 1:1, V_2, AUTO and "design" (an empty style counts as absent), the model and magic-prompt defaults being sent as the texts "V_2" and "AUTO" |
| Ideogram.IdeogramAPI.constructor | src/lib/ai/ideogram.ts:27-29 | the client keeps the key it was given |
| Ideogram.IdeogramAPI.RequestFor | src/lib/ai/ideogram.ts:43-50 | the call is a POST to the endpoint carrying the client's key and the payload |
| Ideogram.IdeogramAPI.GenerateLogo | src/lib/ai/ideogram.ts:31-84 | never throws; success iff a 2xx response has a non-empty `data`; a thrown call, a non-2xx status, an unreadable body and missing data give their own error texts; on success the image comes from `data[0]`, `promptUsed` is the payload prompt, the id starts `ideogram_` and the resolution defaults to 1024x1024 |
| Ideogram.IdeogramClient.constructor | src/lib/ai/ideogram.ts:95 | the module starts with no client |
| Ideogram.IdeogramClient.GetIdeogramAPI | src/lib/ai/ideogram.ts:97-106 | once a client exists, every call returns that same client; without one, a missing or empty key throws and keeps nothing; otherwise a fresh client with the key is created and kept |
| Ideogram.IdeogramClient.GenerateLogoWithIdeogram | src/lib/ai/ideogram.ts:108-113 | throws exactly when no client is kept and the key is missing, keeping nothing; otherwise returns what the kept client's generateLogo returns, and a client created on this call is new and bound to the given key |
| Ideogram.GetIdeogramModelInfo | src/lib/ai/ideogram.ts:115-131 | the quoted price is the pricing table's cost for the premium model |
| Gemini.ColorsText | src/lib/ai/gemini.ts:42 | absent or empty colours, and colours that join to the empty text, give "professional colors"; otherwise the colours joined by ", " |
| Gemini.HintDefaults | src/lib/ai/gemini.ts:39-43 | the concept line carries the prompt unchanged; absent or empty style, industry and colours, and an absent format, take their defaults |
| Gemini.PromptLinesShape | src/lib/ai/gemini.ts:37-54 | the template has sixteen lines: the fixed first line, the five hint lines, then the fixed requirements and closing line |
| Gemini.PromptTemplate | src/lib/ai/gemini.ts:37-54 | the template literal opens with a line break and closes with a line break and four spaces of indentation |
| Gemini.EnhancedPrompt | src/lib/ai/gemini.ts:37-54 | the prompt sent neither starts nor ends with whitespace |
| Gemini.EnhancedPromptIsTemplateBody | src/lib/ai/gemini.ts:37-54 | trimming removes only the template's own outer whitespace: the prompt sent is exactly the lines joined by line breaks, even if the user's text has outer whitespace |
| Gemini.EnhancedPromptStartsWithConcept | src/lib/ai/gemini.ts:38-39 | the enhanced prompt starts with the first line and then "- Main concept: " followed by the user's prompt |
| Gemini.GenerateLogoWithGemini | src/lib/ai/gemini.ts:26-84 | never throws; success iff the model call answers; a failure carries only the message; on success the image link is the placeholder route for the encoded original prompt, `promptUsed` is the model's answer, the model is gemini-2.5 and the id starts `gemini_` |
| Gemini.GetGeminiModelInfo | src/lib/ai/gemini.ts:86-101 | the quoted price is the pricing table's cost for the baseline model |
| Dispatcher.Route | src/lib/ai/index.ts:36-54 | there is no call iff the model is unknown; the baseline adapter gets the hints unchanged; the premium adapter gets style "auto" and aspect ratio 1:1 by default |
| Dispatcher.GenerateLogo | src/lib/ai/index.ts:30-72 | an unknown model and a thrown adapter both give the zero-cost failure with the error's message; a returned result passes success, image, data and error through, charges the model's cost, and relabels any metadata with the requested model |
| Dispatcher.CreditsUsedRule | src/lib/ai/index.ts:31-71 | creditsUsed is nonzero iff the model is known and the adapter returned (successfully or not), and then it is the model's cost |
| Dispatcher.SuccessComesFromAdapter | src/lib/ai/index.ts:56-63 | a successful result comes only from a known model whose adapter returned a success, and its metadata names the requested model |
| Dispatcher.DispatchedIdeogramPayload | src/lib/ai/index.ts:44-50 | a premium request's payload uses the request's style or "auto" (never the adapter's "design" default), the request's aspect ratio or 1:1, V_2 and AUTO |
| Dispatcher.RunAdapter | src/lib/ai/index.ts:36-51 | running the chosen adapter: the baseline one is a pure computation that leaves the client alone; the premium one throws exactly when no client is kept and the key is missing (and then keeps none), otherwise returns the kept client's result, a newly created client being bound to the given key |
| Dispatcher.GetModelInfo | src/lib/ai/index.ts:74-104 | the quoted price is the pricing table's cost for the model |
| Dispatcher.ModelInfoMatchesAdapters | src/lib/ai/index.ts:74-104 | the dispatcher's name and price for each model agree with that adapter's own description |
| Database.BearerToken | src/app/api/generate/route.ts:24-28 | a token exists iff the header is present and starts with "Bearer "; the header is then the prefix followed by the token |
| Database.BearerTokenRoundTrip | src/app/api/generate/route.ts:24-28 | a token sent after "Bearer " is the token read back |
| Database.Authenticate | src/app/api/generate/route.ts:23-33 | a missing or malformed header is "Unauthorized"; a token the service rejects is "Invalid token"; an accepted token names its user |
| GenerateRoute.IssuesEmptyIffWellFormed | src/app/api/generate/route.ts:7-15 | the schema reports no issue iff the body meets every member's constraint |
| GenerateRoute.Validate | src/app/api/generate/route.ts:7-20 | accepts iff the body meets the schema, and then carries the body's members unchanged; otherwise gives the non-empty issue list |
| GenerateRoute.OptionsFor | src/app/api/generate/route.ts:76-84 | the dispatcher gets the validated prompt, style, colors, format, industry and aspect ratio unchanged, and a model identifier that parses back to the validated model |
| GenerateRoute.PendingRecord | src/app/api/generate/route.ts:57-66 | the inserted row carries the caller, the request's prompt and model, and that model's cost; it is pending, with no image and no generation data |
| GenerateRoute.Deducted | src/app/api/generate/route.ts:100-102 | the sentinel stays; a finite balance loses exactly the cost and stays non-negative |
| GenerateRoute.Handle | src/app/api/generate/route.ts:17-158 | the answer is 200, 400, 401, 402, 404 or 500; 200 always carries the generated body; no 4xx answer changes the store |
| GenerateRoute.Charge | src/app/api/generate/route.ts:46-144 | 402 exactly when the balance does not cover the model, and then nothing changes; otherwise 200 or 500 |
| GenerateRoute.Reconcile | src/app/api/generate/route.ts:88-132 | 200 iff the result succeeded; the record becomes completed or failed and keeps its owner, prompt, model and cost; on success it takes the result's image link and, when present, its metadata; on failure it takes the error and keeps its image link; only that record and that user's balance change, the balance losing the record's cost on success only |
| GenerateRoute.UnparseableBodyIs500 | src/app/api/generate/route.ts:155-157 | a body that is not JSON gets 500 "Internal server error" and changes nothing |
| GenerateRoute.InvalidBodyIs400 | src/app/api/generate/route.ts:148-153 | a body the schema rejects gets 400 "Invalid request data" with the issues and changes nothing, whatever the authorization header says |
| GenerateRoute.AuthenticationFailureIs401 | src/app/api/generate/route.ts:23-33 | a valid body with a missing or malformed header gets 401 "Unauthorized"; with a rejected token it gets 401 "Invalid token"; nothing changes |
| GenerateRoute.UnknownUserIs404 | src/app/api/generate/route.ts:36-44 | an authenticated user with no row gets 404 and nothing changes |
| GenerateRoute.InsufficientCreditsIs402 | src/app/api/generate/route.ts:46-54 | an unaffordable request gets 402 "Insufficient credits" with the cost and the stored balance; no record, no balance change |
| GenerateRoute.FailedInsertIs500 | src/app/api/generate/route.ts:56-72 | a failed insert gets 500 "Database error" and changes nothing |
| GenerateRoute.DispatchedModelIsSupported | src/app/api/generate/route.ts:74-86 | the dispatcher always recognises the model it is given here, and any charge it reports is that model's cost |
| GenerateRoute.HandleEffect | src/app/api/generate/route.ts:17-158 | one request keeps sessions, users, tiers and old records; it adds at most one record, under the next id, never left pending, holding the authenticated caller, the validated prompt and model, and that model's cost; every balance changes by exactly that record's cost if it completed and belongs to that user, the sentinel excepted; a finite balance never goes negative |
| GenerateRoute.ChargeEffect | src/app/api/generate/route.ts:46-144 | the same guarantee, from the balance check on, the added record holding the caller, the request's prompt and model, and its cost |
| GenerateRoute.ReconcileEffect | src/app/api/generate/route.ts:88-132 | completing deducts the record's cost from its owner only; failing changes no balance; the settled record keeps the request's prompt, model and cost |
| GenerateRoute.SuccessResponseMatchesStore | src/app/api/generate/route.ts:88-116 | 200 is answered iff a record was added and completed; the response is marked successful and names that record, its cost, the caller, and the balance now stored; the record holds the answered image link and, when there is one, the answered metadata |
| GenerateRoute.SuccessfulGenerationCompletesRecord | src/app/api/generate/route.ts:88-116 | a successful result completes the record, which keeps the caller, the request's prompt and model and its cost, with the result's image link and metadata, deducts the cost from the caller alone, and answers 200 with the dispatcher's image link and metadata |
| GenerateRoute.FailedGenerationKeepsBalance | src/app/api/generate/route.ts:117-132 | a failed result leaves the record failed with the error, still holding the caller, the request's prompt and model and its cost, leaves every balance alone, and answers 500, marked unsuccessful, with the error and the record's id |
| GenerateRoute.ThrowingDispatchMarksFailed | src/app/api/generate/route.ts:133-144 | a throwing dispatch marks the record failed with "Generation service error", still holding the caller, the request's prompt and model and its cost, then answers 500 "Internal server error"; no balance changes |
| GenerateRoute.BaselineGenerationFromFive | src/app/api/generate/route.ts:88-116 | 5 credits and a successful baseline generation give 200 with 1 credit used, 4 remaining and stored, and a completed record |
| GenerateRoute.BalanceChangesIffCompleted | src/app/api/generate/route.ts:88-132 | one request never changes the unlimited sentinel, and changes a finite balance exactly when it completes a record for that user |
| GenerateRoute.RunFrame | src/app/api/generate/route.ts:17-158 | over any run: the store stays valid, sessions and the user set stay, the counter only grows, and old records are never altered |
| GenerateRoute.RunSettlesRecords | src/app/api/generate/route.ts:56-144 | every record a run adds belongs to a known user and ends completed or failed |
| GenerateRoute.RunLedger | src/app/api/generate/route.ts:48-107 | over any run, an unlimited balance stays unlimited; a finite one never goes negative, and final balance plus the credits charged by the user's new completed records equals the starting balance |
| GenerateRoute.GenerationService.constructor | src/app/api/generate/route.ts:2 | the service works against the given store, which must be valid |
| GenerateRoute.GenerationService.Post | src/app/api/generate/route.ts:17-158 | the in-place handler gives the response and leaves the store exactly as Handle says, keeping the store valid |
| GenerateRoute.GenerationService.ChargeUser | src/app/api/generate/route.ts:46-144 | the in-place balance check, insert and dispatch agree with Charge |
| GenerateRoute.GenerationService.ReconcileRecord | src/app/api/generate/route.ts:88-132 | the in-place record and balance update agrees with Reconcile |
| CreditsRoute.Recent | src/app/api/user/credits/route.ts:43-48 | the query gives at most `limit` rows, each an existing record below the bound |
| CreditsRoute.RecentRowsAreOwnRecords | src/app/api/user/credits/route.ts:43-48 | the history query gives at most `limit` rows, all the caller's own records with their stored values, newest first |
| CreditsRoute.RecentIsNewest | src/app/api/user/credits/route.ts:43-48 | a record of the caller missing from the rows is older than every row, and the list is full |
| CreditsRoute.Get | src/app/api/user/credits/route.ts:5-60 | 401 for a failed authentication, 404 for a missing user, otherwise 200 with the stored balance and tier, the first subscription or null, the caller's ten newest records as history, an empty history when the query gives nothing, and isUnlimited iff the balance is -1 |
| CreditsRoute.HistoryIsNewestOwnRecords | src/app/api/user/credits/route.ts:43-54 | the reported history is at most ten of the caller's own records, each with the record's stored cost, model and status, newest first, and leaves out nothing newer |
| CreditsRoute.ReadAfterGenerate | src/app/api/user/credits/route.ts:50-56 | right after a successful generation, the balance endpoint reports the balance that generation answered with, and lists the completed record first |
| PlaceholderLogo.PromptOrDefault | src/app/api/placeholder-logo/route.ts:6 | an absent or empty parameter becomes "Logo"; any other value is kept |
| PlaceholderLogo.UpperAscii | src/app/api/placeholder-logo/route.ts:26 | a lower-case ASCII letter becomes its capital; every other character is kept |
| PlaceholderLogo.Label | src/app/api/placeholder-logo/route.ts:26 | the label is the first min(3, length) characters, each upper-cased, and holds no lower-case ASCII letter |
| PlaceholderLogo.DefaultLabel | src/app/api/placeholder-logo/route.ts:6-26 | without a parameter the badge reads "LOG" |
| PlaceholderLogo.Svg | src/app/api/placeholder-logo/route.ts:9-35 | the document starts and ends with the fixed template texts, and its label can be read back out of it |
| PlaceholderLogo.SameSvgIffSameLabel | src/app/api/placeholder-logo/route.ts:9-35 | two prompts give the same document iff they give the same label |
| PlaceholderLogo.Get | src/app/api/placeholder-logo/route.ts:37-42 | the answer is always served as image/svg+xml with "public, max-age=3600", and its label is the parameter's label |

## Left out

- I/O and outside services are parameters, not models: the Supabase client, the HTTP call, the SDK, the clock, `Math.random`, `encodeURIComponent` and the JSON parser. Nothing says how they behave beyond what the parameters carry.
- Lone surrogates: a Dafny string holds only Unicode scalar values, so a prompt containing a lone UTF-16 surrogate cannot be written down. `encodeURIComponent` throws `URIError` on such a prompt (src/lib/ai/gemini.ts:69) and the catch at src/lib/ai/gemini.ts:77-83 turns that into a failure; the model's `encode` is total, so that failure path is not modelled.
- `console.error` and the other logging calls are left out: they have no effect the model could observe.
- Concurrency is left out. Requests are handled one at a time, so the race between reading the balance (src/app/api/generate/route.ts:36-40) and writing it (104-107) is not modelled.
- The database-update calls are treated as always succeeding, because the code ignores their results. A crash between two updates is not modelled.
- The admin client can be null when its key is not configured (src/lib/supabase.ts:24-31). A request that reaches the first authentication or database call would then fail there and answer 500 from the outer catch. The placeholder endpoint never uses the client. The model assumes the client exists.
- Recency in the balance endpoint is the order of record ids, which the model hands out in insertion order. `created_at` timestamps are not modelled, and the database's uuids are modelled as a counter.
- Balances below -1 are not modelled: `Credits` is -1 or a natural number. Outside that domain, the sentinel can collide with a real estimate, for example `calculateGenerations(-3, 'ideogram')` is -1.
- GenerateRoute.Validate: it does not model zod's issue messages, issue codes or element-level paths. The prompt length counts Unicode scalar values, not UTF-16 code units. Members the schema does not name are left out, since the schema drops them.
- PlaceholderLogo.Label: it upper-cases ASCII letters only, where `toUpperCase` handles all of Unicode (`ß` becomes two characters). It also counts Unicode scalar values where `slice` counts UTF-16 code units.
- PlaceholderLogo.Get: reading the `prompt` parameter out of the URL is not modelled; the handler receives its decoded value.
- Gemini.GenerateLogoWithGemini: the client created at module load (src/lib/ai/gemini.ts:3, 34) is represented only by the `sdk` parameter.
- Ideogram.IdeogramAPI.GenerateLogo: it does not model JSON serialisation of the payload or the exact header map, only the key and content type. `data` is either absent or an array of objects. A `data[0]` that is null or not an object cannot be represented. In the source, reading its fields throws a TypeError, which the catch turns into a failure (src/lib/ai/ideogram.ts:59,64).
- GenerateRoute.Handle: `dispatchThrows` stands for generateLogo throwing instead of returning. The dispatcher as modelled never throws, because it catches everything itself, so that branch (src/app/api/generate/route.ts:133-144) is reachable only through this parameter.
- Metadata fields beyond model, prompt used, timestamp, id and resolution are left out, because neither adapter produces any.
- The React pages are outside this model, and so are the other endpoints that are not named above.

=== FILE: ai_types.dfy ===
/** The vocabulary the provider adapters and the dispatcher share: request
    hints, the provenance metadata of a generation and the result record an
    adapter returns (src/lib/ai/gemini.ts, src/lib/ai/ideogram.ts,
    src/lib/ai/index.ts). */
module AiTypes {
  import opened Common
  import opened Pricing

  datatype Format = Square | Horizontal | Vertical

  function FormatText(f: Format): string
  {
    match f
    case Square => "square"
    case Horizontal => "horizontal"
    case Vertical => "vertical"
  }

  function ParseFormat(s: string): (r: Option<Format>)
    ensures r.Some? ==> FormatText(r.value) == s
    ensures forall f: Format :: FormatText(f) == s ==> r == Some(f)
  {
    if s == "square" then Some(Square)
    else if s == "horizontal" then Some(Horizontal)
    else if s == "vertical" then Some(Vertical)
    else None
  }

  datatype AspectRatio = Ratio1x1 | Ratio16x9 | Ratio9x16 | Ratio4x3 | Ratio3x4

  function AspectRatioText(a: AspectRatio): string
  {
    match a
    case Ratio1x1 => "1:1"
    case Ratio16x9 => "16:9"
    case Ratio9x16 => "9:16"
    case Ratio4x3 => "4:3"
    case Ratio3x4 => "3:4"
  }

  function ParseAspectRatio(s: string): (r: Option<AspectRatio>)
    ensures r.Some? ==> AspectRatioText(r.value) == s
    ensures forall a: AspectRatio :: AspectRatioText(a) == s ==> r == Some(a)
  {
    if s == "1:1" then Some(Ratio1x1)
    else if s == "16:9" then Some(Ratio16x9)
    else if s == "9:16" then Some(Ratio9x16)
    else if s == "4:3" then Some(Ratio4x3)
    else if s == "3:4" then Some(Ratio3x4)
    else None
  }

  /** Provenance of one generation: the model, the prompt text actually used,
      a timestamp, a fresh identifier and, for Ideogram, the resolution. */
  datatype Metadata = Metadata(
    model: AIModel,
    promptUsed: string,
    timestamp: string,
    generationId: string,
    resolution: Option<string>)

  /** The record both adapters return. */
  datatype AdapterResult = AdapterResult(
    success: bool,
    imageUrl: Option<string>,
    imageData: Option<string>,
    error: Option<string>,
    metadata: Option<Metadata>)

  /** The shape of every failure an adapter reports: only the error text. */
  function Failure(message: string): AdapterResult
  {
    AdapterResult(false, None, None, Some(message), None)
  }

  /** The readings of the clock and of the random generator that an adapter
      stamps into a successful result: `Date.now()`, the base-36 digits taken
      from `Math.random()`, and `new Date().toISOString()`. */
  datatype Stamp = Stamp(nowMillis: nat, randomPart: string, isoTimestamp: string)

  /** `${prefix}_${Date.now()}_${random}`: the identifier starts with the
      provider's prefix and an underscore, followed by the digits of the clock
      reading, another underscore and the random part. */
  function GenerationId(prefix: string, st: Stamp): (id: string)
    ensures StartsWith(id, prefix + "_")
    ensures |id| > |prefix| + 1 && IsDigit(id[|prefix| + 1])
    ensures StartsWith(id, prefix + "_" + NatToString(st.nowMillis) + "_")
    ensures |id| >= |st.randomPart| && id[|id| - |st.randomPart|..] == st.randomPart
  {
    prefix + "_" + NatToString(st.nowMillis) + "_" + st.randomPart
  }

  /** The descriptive record getGeminiModelInfo and getIdeogramModelInfo return. */
  datatype AdapterModelInfo = AdapterModelInfo(
    name: string,
    description: string,
    creditsPerGeneration: nat,
    features: seq<string>,
    limitations: seq<string>)
}

=== FILE: common.dfy ===
/** Value-level stand-ins for the few JavaScript built-ins the core relies on:
    optional values, thrown values and the string operations used to build
    prompts, identifiers and error messages. */
module Common {

  datatype Option<+T> = None | Some(value: T)

  /** What a `throw` can carry: an `Error` object with its message, or any
      other value. */
  datatype Thrown = ErrorObject(message: string) | OtherValue

  datatype Result<+T, +E> = Ok(value: T) | Err(error: E)

  /** The completion of a call that either returns a value or throws. */
  datatype Outcome<+T> = Value(value: T) | Raised(thrown: Thrown)

  const UnknownError := "Unknown error occurred"

  /** What every `catch` in the core reports:
      `error instanceof Error ? error.message : 'Unknown error occurred'`. */
  function MessageOf(t: Thrown): (m: string)
    ensures t.ErrorObject? ==> m == t.message
    ensures t.OtherValue? ==> m == UnknownError
  {
    match t
    case ErrorObject(m) => m
    case OtherValue => UnknownError
  }

  /** JavaScript's `s || d` on an optional string: both `undefined` and the
      empty string are falsy and give the default. */
  function OrDefault(s: Option<string>, d: string): (r: string)
    ensures s.Some? && s.value != "" ==> r == s.value
    ensures s == None || s == Some("") ==> r == d
    ensures d != "" ==> r != ""
  {
    if s.Some? && s.value != "" then s.value else d
  }

  predicate StartsWith(s: string, prefix: string)
  {
    |prefix| <= |s| && s[..|prefix|] == prefix
  }

  predicate EndsWith(s: string, suffix: string)
  {
    |suffix| <= |s| && s[|s| - |suffix|..] == suffix
  }

  /** `Array.prototype.join(sep)` on an array of strings. */
  function Join(xs: seq<string>, sep: string): (r: string)
    ensures |xs| == 0 ==> r == ""
    ensures |xs| > 0 ==> StartsWith(r, xs[0]) && EndsWith(r, xs[|xs| - 1])
    ensures |xs| == 1 ==> r == xs[0]
    decreases |xs|
  {
    if |xs| == 0 then ""
    else if |xs| == 1 then xs[0]
    else xs[0] + sep + Join(xs[1..], sep)
  }

  /** Appending one more piece appends the separator and that piece: the
      separator stands between every two neighbouring pieces. */
  lemma {:induction false} JoinSnoc(xs: seq<string>, y: string, sep: string)
    requires |xs| > 0
    ensures Join(xs + [y], sep) == Join(xs, sep) + sep + y
    decreases |xs|
  {
    if |xs| == 1 {
      assert (xs + [y])[1..] == [y];
    } else {
      assert (xs + [y])[1..] == xs[1..] + [y];
      JoinSnoc(xs[1..], y, sep);
    }
  }

  /** A joined text starts with its first two pieces and their separators. */
  lemma {:induction false} JoinStartsWithFirstTwo(xs: seq<string>, sep: string)
    requires |xs| >= 3
    ensures StartsWith(Join(xs, sep), xs[0] + sep + xs[1] + sep)
  {
    assert xs[1..][1..] == xs[2..];
    var p := xs[0] + sep + xs[1] + sep;
    assert Join(xs, sep) == p + Join(xs[2..], sep);
    assert (p + Join(xs[2..], sep))[..|p|] == p;
  }

  predicate IsDigit(c: char)
  {
    '0' <= c <= '9'
  }

  function DigitChar(d: nat): (c: char)
    requires d < 10
    ensures IsDigit(c) && c as int - '0' as int == d
  {
    ('0' as int + d) as char
  }

  /** The decimal text of a non-negative integer, as a template literal
      prints a JavaScript number with no fractional part. */
  function NatToString(n: nat): (s: string)
    ensures |s| > 0
    ensures forall i :: 0 <= i < |s| ==> IsDigit(s[i])
    ensures n >= 10 ==> s[0] != '0'
    decreases n
  {
    if n < 10 then [DigitChar(n)] else NatToString(n / 10) + [DigitChar(n % 10)]
  }

  /** Reads back a string of decimal digits; the partner of NatToString. */
  function ParseDecimal(s: string): nat
    requires forall i :: 0 <= i < |s| ==> IsDigit(s[i])
    decreases |s|
  {
    if s == [] then 0
    else ParseDecimal(s[..|s| - 1]) * 10 + DigitValue(s[|s| - 1])
  }

  function DigitValue(c: char): nat
    requires IsDigit(c)
  {
    c as int - '0' as int
  }

  /** Printing a number and reading it back gives the number: the decimal
      text of a status code or a clock reading loses nothing. */
  lemma {:induction false} NatToStringRoundTrip(n: nat)
    ensures ParseDecimal(NatToString(n)) == n
    decreases n
  {
    if n >= 10 {
      NatToStringRoundTrip(n / 10);
      var s := NatToString(n);
      assert s[..|s| - 1] == NatToString(n / 10);
    }
  }

  /** The characters `String.prototype.trim` removes: the WhiteSpace and
      LineTerminator code points of ECMAScript. */
  predicate IsJsWhitespace(c: char)
  {
    c == '\U{9}' || c == '\U{A}' || c == '\U{B}' || c == '\U{C}' || c == '\U{D}' ||
    c == '\U{20}' || c == '\U{A0}' || c == '\U{1680}' ||
    ('\U{2000}' <= c <= '\U{200A}') ||
    c == '\U{2028}' || c == '\U{2029}' || c == '\U{202F}' || c == '\U{205F}' ||
    c == '\U{3000}' || c == '\U{FEFF}'
  }

  function TrimStart(s: string): (r: string)
    ensures |r| <= |s| && r == s[|s| - |r|..]
    ensures r != [] ==> !IsJsWhitespace(r[0])
    decreases |s|
  {
    if s != [] && IsJsWhitespace(s[0]) then TrimStart(s[1..]) else s
  }

  function TrimEnd(s: string): (r: string)
    ensures |r| <= |s| && r == s[..|r|]
    ensures r != [] ==> !IsJsWhitespace(r[|r| - 1])
    decreases |s|
  {
    if s != [] && IsJsWhitespace(s[|s| - 1]) then TrimEnd(s[..|s| - 1]) else s
  }

  /** `String.prototype.trim`: the result is no longer than the text,
      neither starts nor ends with whitespace, and a text without any
      whitespace is left as it is, and a text of whitespace alone becomes
      empty. */
  function Trim(s: string): (r: string)
    ensures |r| <= |s|
    ensures r != [] ==> !IsJsWhitespace(r[0]) && !IsJsWhitespace(r[|r| - 1])
    ensures (forall i :: 0 <= i < |s| ==> !IsJsWhitespace(s[i])) ==> r == s
    ensures (forall i :: 0 <= i < |s| ==> IsJsWhitespace(s[i])) ==> r == ""
  {
    TrimEnd(TrimStart(s))
  }

  /** Whitespace in front of a string that starts with a visible character is
      all that TrimStart removes. */
  lemma {:induction false} TrimStartPrefix(w: string, x: string)
    requires forall i :: 0 <= i < |w| ==> IsJsWhitespace(w[i])
    requires x != [] && !IsJsWhitespace(x[0])
    ensures TrimStart(w + x) == x
    decreases |w|
  {
    if w != [] {
      assert (w + x)[0] == w[0];
      assert IsJsWhitespace((w + x)[0]);
      assert (w + x)[1..] == w[1..] + x;
      TrimStartPrefix(w[1..], x);
      assert TrimStart(w + x) == TrimStart(w[1..] + x);
    } else {
      assert w + x == x;
    }
  }

  /** Whitespace behind a string that ends with a visible character is all
      that TrimEnd removes. */
  lemma {:induction false} TrimEndSuffix(x: string, w: string)
    requires forall i :: 0 <= i < |w| ==> IsJsWhitespace(w[i])
    requires x != [] && !IsJsWhitespace(x[|x| - 1])
    ensures TrimEnd(x + w) == x
    decreases |w|
  {
    if w != [] {
      assert (x + w)[|x + w| - 1] == w[|w| - 1];
      assert IsJsWhitespace((x + w)[|x + w| - 1]);
      assert (x + w)[..|x + w| - 1] == x + w[..|w| - 1];
      TrimEndSuffix(x, w[..|w| - 1]);
      assert TrimEnd(x + w) == TrimEnd(x + w[..|w| - 1]);
    } else {
      assert x + w == x;
    }
  }

  /** Trimming a text padded with whitespace on both sides recovers the text
      when it starts and ends with a visible character, whatever it holds in
      between. */
  lemma TrimPadded(w1: string, x: string, w2: string)
    requires forall i :: 0 <= i < |w1| ==> IsJsWhitespace(w1[i])
    requires forall i :: 0 <= i < |w2| ==> IsJsWhitespace(w2[i])
    requires x != [] && !IsJsWhitespace(x[0]) && !IsJsWhitespace(x[|x| - 1])
    ensures Trim(w1 + x + w2) == x
  {
    assert w1 + x + w2 == w1 + (x + w2);
    TrimStartPrefix(w1, x + w2);
    TrimEndSuffix(x, w2);
  }
}

=== FILE: credits_route.dfy ===
/** The balance endpoint (src/app/api/user/credits/route.ts): after the same
    authentication as the generation endpoint, it reports the user's stored
    balance and tier, the first joined subscription, the ten most recent
    generations and whether the balance is the unlimited sentinel. It only
    reads the store. Recency is the order of record ids, which the store
    hands out in insertion order. */
module CreditsRoute {
  import opened Common
  import opened Pricing
  import opened Database
  import GenerateRoute

  /** One row of the recent-generations query. */
  datatype RecentGeneration = RecentGeneration(id: nat, creditsUsed: nat, modelUsed: AIModel, status: Status)

  datatype CreditsBody =
    | ErrorReply(error: string)
    | Info(
        creditsRemaining: Credits,
        subscriptionTier: Tier,
        subscription: Option<SubscriptionRow>,
        recentGenerations: seq<RecentGeneration>,
        isUnlimited: bool)

  datatype CreditsResponse = CreditsResponse(status: nat, body: CreditsBody)

  const HistoryLimit := 10

  function RowOf(id: nat, r: GenerationRecord): RecentGeneration
  {
    RecentGeneration(id, r.creditsUsed, r.modelUsed, r.status)
  }

  /** The query `user_id = u`, newest first, at most `limit` rows, over the
      records with ids below `hi`. */
  function Recent(records: map<nat, GenerationRecord>, u: UserId, hi: nat, limit: nat): (r: seq<RecentGeneration>)
    ensures |r| <= limit
    ensures forall i :: 0 <= i < |r| ==> r[i].id < hi && r[i].id in records
    decreases hi
  {
    if hi == 0 || limit == 0 then []
    else if hi - 1 in records && records[hi - 1].userId == u then
      [RowOf(hi - 1, records[hi - 1])] + Recent(records, u, hi - 1, limit - 1)
    else Recent(records, u, hi - 1, limit)
  }

  /** The rows are at most `limit` of u's own records below `hi`, each
      reported with the record's own values, newest first. */
  lemma {:induction false} RecentRowsAreOwnRecords(records: map<nat, GenerationRecord>, u: UserId, hi: nat, limit: nat)
    ensures var r := Recent(records, u, hi, limit);
      && |r| <= limit
      && (forall i :: 0 <= i < |r| ==>
            r[i].id < hi && r[i].id in records && records[r[i].id].userId == u &&
            r[i] == RowOf(r[i].id, records[r[i].id]))
      && (forall i, j :: 0 <= i < j < |r| ==> r[i].id > r[j].id)
    decreases hi
  {
    if hi > 0 && limit > 0 {
      if hi - 1 in records && records[hi - 1].userId == u {
        RecentRowsAreOwnRecords(records, u, hi - 1, limit - 1);
      } else {
        RecentRowsAreOwnRecords(records, u, hi - 1, limit);
      }
    }
  }

  /** Nothing newer is skipped: a record of u below `hi` that is missing
      from the rows is older than every row, and the list is full. */
  lemma {:induction false} RecentIsNewest(records: map<nat, GenerationRecord>, u: UserId, hi: nat, limit: nat, id: nat)
    requires id < hi && id in records && records[id].userId == u
    requires forall i :: 0 <= i < |Recent(records, u, hi, limit)| ==> Recent(records, u, hi, limit)[i].id != id
    ensures |Recent(records, u, hi, limit)| == limit
    ensures forall i :: 0 <= i < |Recent(records, u, hi, limit)| ==> Recent(records, u, hi, limit)[i].id > id
    decreases hi
  {
    var r := Recent(records, u, hi, limit);
    if limit > 0 {
      if hi - 1 in records && records[hi - 1].userId == u {
        assert r[0].id == hi - 1;
        assert id < hi - 1;
        var rest := Recent(records, u, hi - 1, limit - 1);
        assert r == [r[0]] + rest;
        forall i | 0 <= i < |rest| ensures rest[i].id != id {
          assert rest[i] == r[i + 1];
        }
        RecentIsNewest(records, u, hi - 1, limit - 1, id);
        forall i | 0 <= i < |r| ensures r[i].id > id {
          if i > 0 {
            assert r[i] == rest[i - 1];
          }
        }
      } else {
        assert id != hi - 1;
        RecentIsNewest(records, u, hi - 1, limit, id);
      }
    }
  }

  /** GET /api/user/credits. `historyAvailable` says whether the
      recent-generations query returned data; when it does not, the list is
      empty rather than an error. */
  function Get(s: Store, authorization: Option<string>, historyAvailable: bool): (r: CreditsResponse)
    ensures Authenticate(s, authorization).Err? ==>
      r == CreditsResponse(401, ErrorReply(Authenticate(s, authorization).error))
    ensures Authenticate(s, authorization).Ok? && Authenticate(s, authorization).value !in s.users ==>
      r == CreditsResponse(404, ErrorReply(UserNotFoundMessage))
    ensures r.status == 200 <==> Authenticate(s, authorization).Ok? && Authenticate(s, authorization).value in s.users
    ensures r.status == 200 ==>
      var row := s.users[Authenticate(s, authorization).value];
      && r.body.Info?
      && r.body.creditsRemaining == row.creditsRemaining
      && r.body.subscriptionTier == row.subscriptionTier
      && (r.body.isUnlimited <==> row.creditsRemaining == Unlimited)
      && (r.body.subscription.None? <==> row.subscriptions == [])
      && (r.body.subscription.Some? ==> r.body.subscription.value == row.subscriptions[0])
      && (!historyAvailable ==> r.body.recentGenerations == [])
      && (historyAvailable ==>
            r.body.recentGenerations == Recent(s.records, Authenticate(s, authorization).value, s.nextId, HistoryLimit))
  {
    match Authenticate(s, authorization)
    case Err(message) => CreditsResponse(401, ErrorReply(message))
    case Ok(u) =>
      if u !in s.users then CreditsResponse(404, ErrorReply(UserNotFoundMessage))
      else
        var row := s.users[u];
        CreditsResponse(200, Info(
          row.creditsRemaining,
          row.subscriptionTier,
          if |row.subscriptions| > 0 then Some(row.subscriptions[0]) else None,
          if historyAvailable then Recent(s.records, u, s.nextId, HistoryLimit) else [],
          row.creditsRemaining == Unlimited))
  }

  /** The reported history is at most ten of the caller's own records,
      each with the record's stored cost, model and status, newest first,
      with nothing newer left out. */
  lemma {:induction false} HistoryIsNewestOwnRecords(s: Store, authorization: Option<string>, id: nat)
    requires Get(s, authorization, true).status == 200
    ensures var u := Authenticate(s, authorization).value;
      var r := Get(s, authorization, true).body.recentGenerations;
      && |r| <= HistoryLimit
      && (forall i :: 0 <= i < |r| ==>
            r[i].id in s.records && s.records[r[i].id].userId == u && r[i] == RowOf(r[i].id, s.records[r[i].id]))
      && (forall i, j :: 0 <= i < j < |r| ==> r[i].id > r[j].id)
      && (id < s.nextId && id in s.records && s.records[id].userId == u &&
          (forall i :: 0 <= i < |r| ==> r[i].id != id) ==>
            |r| == HistoryLimit && forall i :: 0 <= i < |r| ==> r[i].id > id)
  {
    var u := Authenticate(s, authorization).value;
    RecentRowsAreOwnRecords(s.records, u, s.nextId, HistoryLimit);
    if id < s.nextId && id in s.records && s.records[id].userId == u &&
       (forall i :: 0 <= i < |Recent(s.records, u, s.nextId, HistoryLimit)| ==>
          Recent(s.records, u, s.nextId, HistoryLimit)[i].id != id) {
      RecentIsNewest(s.records, u, s.nextId, HistoryLimit, id);
    }
  }

  /** Reading the balance right after a successful generation, with the
      same credentials, reports the balance the generation answered with,
      and the newest generation listed is the completed one just made. */
  lemma {:induction false} ReadAfterGenerate(s: Store, req: GenerateRoute.Request, env: GenerateRoute.Env)
    requires Valid(s)
    requires GenerateRoute.Handle(s, req, env).0.status == 200
    ensures var (resp, s2) := GenerateRoute.Handle(s, req, env);
      var r := Get(s2, req.authorization, true);
      && r.status == 200
      && r.body.creditsRemaining == resp.body.creditsRemaining
      && |r.body.recentGenerations| > 0
      && r.body.recentGenerations[0].id == resp.body.generationId
      && r.body.recentGenerations[0].status == Completed
      && r.body.recentGenerations[0].creditsUsed == resp.body.creditsUsed
  {
    var (resp, s2) := GenerateRoute.Handle(s, req, env);
    GenerateRoute.SuccessResponseMatchesStore(s, req, env);
    GenerateRoute.HandleEffect(s, req, env);
    var u := s2.records[s.nextId].userId;
    assert Authenticate(s2, req.authorization) == Ok(u);
    assert s2.nextId == s.nextId + 1;
    assert Recent(s2.records, u, s2.nextId, HistoryLimit)[0] == RowOf(s.nextId, s2.records[s.nextId]);
  }
}

=== FILE: database.dfy ===
/** The rows the two API routes read and write (src/lib/database.types.ts),
    held as maps, together with the authentication step both routes share.
    The hosted database and its authentication service are not modelled;
    `sessions` stands for the tokens the authentication service accepts and
    the user each one belongs to. */
module Database {
  import opened Common
  import opened Pricing
  import opened AiTypes

  type UserId = string

  /** generation_status. */
  datatype Status = Pending | Completed | Failed

  /** A joined `subscriptions` row, with the columns the credits route
      selects. */
  datatype SubscriptionRow = SubscriptionRow(
    tier: Tier,
    creditsIncluded: nat,
    currentPeriodEnd: string,
    status: string)

  /** A `users` row, with the columns the routes use. */
  datatype UserRow = UserRow(
    creditsRemaining: Credits,
    subscriptionTier: Tier,
    subscriptions: seq<SubscriptionRow>)

  /** The `generation_data` column: null, the generation's metadata, or an
      `{ error }` object whose error may be absent. */
  datatype GenerationData = NoData | MetadataData(metadata: Metadata) | ErrorData(error: Option<string>)

  /** A `logo_generations` row. */
  datatype GenerationRecord = GenerationRecord(
    userId: UserId,
    prompt: string,
    modelUsed: AIModel,
    creditsUsed: nat,
    imageUrl: Option<string>,
    generationData: GenerationData,
    status: Status)

  /** The store. Record ids are handed out by a counter, so a larger id is a
      later insertion. */
  datatype Store = Store(
    sessions: map<string, UserId>,
    users: map<UserId, UserRow>,
    records: map<nat, GenerationRecord>,
    nextId: nat)

  /** Every record id was handed out by the counter. */
  ghost predicate Valid(s: Store)
  {
    forall id :: id in s.records ==> id < s.nextId
  }

  const BearerPrefix := "Bearer "

  /** `authHeader?.startsWith('Bearer ')` and `authHeader.substring(7)`: the
      token is what follows the seven-character prefix, and it is there
      exactly when the header is present and starts with that prefix. */
  function BearerToken(authorization: Option<string>): (token: Option<string>)
    ensures token.Some? <==> authorization.Some? && StartsWith(authorization.value, BearerPrefix)
    ensures token.Some? ==> authorization.value == BearerPrefix + token.value
  {
    if authorization.Some? && StartsWith(authorization.value, BearerPrefix) then
      Some(authorization.value[|BearerPrefix|..])
    else None
  }

  /** A token sent with the prefix is the token read back. */
  lemma BearerTokenRoundTrip(token: string)
    ensures BearerToken(Some(BearerPrefix + token)) == Some(token)
  {
    assert (BearerPrefix + token)[..|BearerPrefix|] == BearerPrefix;
    assert (BearerPrefix + token)[|BearerPrefix|..] == token;
  }

  const UnauthorizedMessage := "Unauthorized"
  const InvalidTokenMessage := "Invalid token"
  const UserNotFoundMessage := "User not found"

  /** The authentication both routes begin with: a missing or malformed
      header is "Unauthorized", a token the service does not accept is
      "Invalid token", and an accepted token names its user. */
  function Authenticate(s: Store, authorization: Option<string>): (r: Result<UserId, string>)
    ensures BearerToken(authorization).None? <==> r == Err(UnauthorizedMessage)
    ensures r.Ok? <==> BearerToken(authorization).Some? && BearerToken(authorization).value in s.sessions
    ensures r.Ok? ==> r.value == s.sessions[BearerToken(authorization).value]
    ensures r.Err? ==> r.error == UnauthorizedMessage || r.error == InvalidTokenMessage
  {
    match BearerToken(authorization)
    case None => Err(UnauthorizedMessage)
    case Some(token) =>
      if token in s.sessions then Ok(s.sessions[token]) else Err(InvalidTokenMessage)
  }
}

=== FILE: dispatcher.dfy ===
/** The generation dispatcher (src/lib/ai/index.ts): it picks the adapter for
    the requested model, fills in that adapter's options, and normalises what
    the adapter produced into a generation result carrying the credits used.
    What the adapter call did is a parameter: `adapter` maps the call the
    dispatcher makes to its completion, a returned result or a thrown value. */
module Dispatcher {
  import opened Common
  import opened Pricing
  import opened AiTypes
  import Gemini
  import Ideogram

  /** GenerationOptions. The model is kept as the text the caller gave, so
      that the dispatcher's own rejection of unknown models is part of the
      model. */
  datatype GenerationOptions = GenerationOptions(
    model: string,
    prompt: string,
    style: Option<string>,
    colors: Option<seq<string>>,
    format: Option<Format>,
    industry: Option<string>,
    aspectRatio: Option<AspectRatio>)

  /** The adapter call the dispatcher makes, with the options it builds. */
  datatype AdapterCall =
    | ToGemini(geminiOptions: Gemini.GeminiOptions)
    | ToIdeogram(ideogramOptions: Ideogram.IdeogramOptions)

  /** GenerationResult. */
  datatype GenerationResult = GenerationResult(
    success: bool,
    imageUrl: Option<string>,
    imageData: Option<string>,
    error: Option<string>,
    creditsUsed: nat,
    metadata: Option<Metadata>)

  const UnsupportedPrefix := "Unsupported model: "

  /** The call for a supported model: the baseline adapter gets the request's
      hints as they are; the premium adapter gets the prompt, a style that
      falls back to "auto" and an aspect ratio that falls back to 1:1. An
      unknown model gets no call. */
  function Route(o: GenerationOptions): (c: Option<AdapterCall>)
    ensures c.None? <==> ParseModel(o.model).None?
    ensures ParseModel(o.model) == Some(Gemini25) ==>
      c == Some(ToGemini(Gemini.GeminiOptions(o.prompt, o.style, o.colors, o.format, o.industry)))
    ensures ParseModel(o.model) == Some(Ideogram) ==>
      && c.Some? && c.value.ToIdeogram?
      && c.value.ideogramOptions.prompt == o.prompt
      && c.value.ideogramOptions.style == Some(OrDefault(o.style, "auto"))
      && c.value.ideogramOptions.aspectRatio == Some(if o.aspectRatio.Some? then o.aspectRatio.value else Ratio1x1)
      && c.value.ideogramOptions.model == None
      && c.value.ideogramOptions.magicPromptOption == None
  {
    if o.model == ModelId(Gemini25) then
      Some(ToGemini(Gemini.GeminiOptions(o.prompt, o.style, o.colors, o.format, o.industry)))
    else if o.model == ModelId(Ideogram) then
      Some(ToIdeogram(Ideogram.IdeogramOptions(
        o.prompt,
        Some(OrDefault(o.style, "auto")),
        Some(if o.aspectRatio.Some? then o.aspectRatio.value else Ratio1x1),
        None,
        None)))
    else None
  }

  /** The catch branch: a failure that charges nothing. */
  function Caught(t: Thrown): GenerationResult
  {
    GenerationResult(false, None, None, Some(MessageOf(t)), 0, None)
  }

  /** generateLogo. An unknown model and a thrown adapter call both end in the
      zero-cost failure carrying the error's message. A returned adapter
      result, successful or not, is passed through with the model's cost as
      creditsUsed and with its metadata (when present) relabelled with the
      requested model. */
  function GenerateLogo(o: GenerationOptions, adapter: AdapterCall -> Outcome<AdapterResult>): (r: GenerationResult)
    ensures Route(o).None? ==> r == Caught(ErrorObject(UnsupportedPrefix + o.model))
    ensures Route(o).Some? && adapter(Route(o).value).Raised? ==> r == Caught(adapter(Route(o).value).thrown)
    ensures Route(o).Some? && adapter(Route(o).value).Value? ==>
      var a := adapter(Route(o).value).value;
      && r.success == a.success && r.imageUrl == a.imageUrl
      && r.imageData == a.imageData && r.error == a.error
      && r.creditsUsed == CreditCost(ParseModel(o.model).value)
      && (a.metadata.None? ==> r.metadata.None?)
      && (a.metadata.Some? ==> r.metadata == Some(a.metadata.value.(model := ParseModel(o.model).value)))
  {
    match Route(o)
    case None => Caught(ErrorObject(UnsupportedPrefix + o.model))
    case Some(call) =>
      match adapter(call)
      case Raised(t) => Caught(t)
      case Value(a) =>
        var m := ParseModel(o.model).value;
        GenerationResult(a.success, a.imageUrl, a.imageData, a.error, CreditCost(m),
          if a.metadata.Some? then Some(a.metadata.value.(model := m)) else None)
  }

  /** What the result charges: the model's cost exactly when the adapter
      returned (even with a failure), nothing when the model is unknown or the
      adapter threw. */
  lemma {:induction false} CreditsUsedRule(o: GenerationOptions, adapter: AdapterCall -> Outcome<AdapterResult>)
    ensures GenerateLogo(o, adapter).creditsUsed > 0 <==>
      ParseModel(o.model).Some? && adapter(Route(o).value).Value?
    ensures GenerateLogo(o, adapter).creditsUsed > 0 ==>
      GenerateLogo(o, adapter).creditsUsed == CreditCost(ParseModel(o.model).value)
  {
  }

  /** A successful generation result only comes from a supported model whose
      adapter returned a successful result, and then its metadata, if any,
      names the requested model. */
  lemma {:induction false} SuccessComesFromAdapter(o: GenerationOptions, adapter: AdapterCall -> Outcome<AdapterResult>)
    requires GenerateLogo(o, adapter).success
    ensures ParseModel(o.model).Some?
    ensures adapter(Route(o).value).Value? && adapter(Route(o).value).value.success
    ensures GenerateLogo(o, adapter).metadata.Some? ==>
      ModelId(GenerateLogo(o, adapter).metadata.value.model) == o.model
  {
  }

  /** A request routed to the premium adapter never reaches that adapter's own
      "design" style default: the dispatcher has already put "auto" in its
      place, and the payload's aspect ratio is the request's or 1:1. */
  lemma DispatchedIdeogramPayload(o: GenerationOptions)
    requires ParseModel(o.model) == Some(Ideogram)
    ensures Ideogram.BuildImageRequest(Route(o).value.ideogramOptions).styleType == OrDefault(o.style, "auto")
    ensures Ideogram.BuildImageRequest(Route(o).value.ideogramOptions).aspectRatio ==
      (if o.aspectRatio.Some? then o.aspectRatio.value else Ratio1x1)
    ensures Ideogram.BuildImageRequest(Route(o).value.ideogramOptions).model == Ideogram.V2
    ensures Ideogram.BuildImageRequest(Route(o).value.ideogramOptions).magicPromptOption == Ideogram.MagicAuto
  {
    var io := Route(o).value.ideogramOptions;
    Ideogram.PayloadDefaults(io);
    assert OrDefault(o.style, "auto") != "";
  }

  /** The adapters themselves, run for one call: the baseline adapter is a
      pure computation over the model call, the premium one goes through the
      lazily created client. GenerateLogo takes the outcome of such a call
      abstractly, as its `adapter` parameter. */
  method RunAdapter(call: AdapterCall, client: Ideogram.IdeogramClient, apiKeyVar: Option<string>,
                    fetch: Ideogram.HttpRequest -> Ideogram.FetchOutcome, sdk: string -> Gemini.SdkOutcome,
                    encode: string -> string, st: Stamp)
    returns (out: Outcome<AdapterResult>)
    modifies client
    ensures call.ToGemini? ==>
      out == Value(Gemini.GenerateLogoWithGemini(call.geminiOptions, sdk, st, encode)) &&
      client.instance == old(client.instance)
    ensures call.ToIdeogram? ==>
      (out.Raised? <==> old(client.instance) == null && OrDefault(apiKeyVar, "") == "")
    ensures call.ToIdeogram? && out.Raised? ==>
      out.thrown == ErrorObject(Ideogram.MissingKeyMessage) && client.instance == null
    ensures call.ToIdeogram? && old(client.instance) == null && out.Value? ==>
      fresh(client.instance) && client.instance.apiKey == apiKeyVar.value
    ensures call.ToIdeogram? && out.Value? ==>
      client.instance != null && out.value == client.instance.GenerateLogo(call.ideogramOptions, fetch, st)
    ensures call.ToIdeogram? && old(client.instance) != null ==>
      out == Value(old(client.instance).GenerateLogo(call.ideogramOptions, fetch, st))
  {
    match call
    case ToGemini(g) =>
      out := Value(Gemini.GenerateLogoWithGemini(g, sdk, st, encode));
    case ToIdeogram(io) =>
      out := client.GenerateLogoWithIdeogram(io, apiKeyVar, fetch, st);
  }

  /** What getModelInfo returns. */
  datatype ModelInfo = ModelInfo(
    name: string,
    description: string,
    creditsPerGeneration: nat,
    speed: string,
    quality: string,
    features: seq<string>)

  /** getModelInfo: the price it quotes is the pricing table's. */
  function GetModelInfo(m: AIModel): (info: ModelInfo)
    ensures info.creditsPerGeneration == CreditCost(m)
  {
    if m == Gemini25 then
      ModelInfo(
        "Gemini 2.5",
        "Google's latest AI model for fast, cost-effective logo generation",
        CreditCost(m),
        "Fast (2-5 seconds)",
        "Good",
        ["Fast generation",
         "Cost-effective",
         "Good for rapid prototyping",
         "Multiple style options"])
    else
      ModelInfo(
        "Ideogram V2",
        "Premium AI model for high-quality, detailed logo generation",
        CreditCost(m),
        "Slower (10-30 seconds)",
        "Premium",
        ["High-quality output",
         "Advanced customization",
         "Text rendering capability",
         "Photorealistic options"])
  }

  /** The dispatcher's model descriptions agree with the adapters' own on the
      name and the price. */
  lemma ModelInfoMatchesAdapters(m: AIModel)
    ensures m == Gemini25 ==>
      GetModelInfo(m).name == Gemini.GetGeminiModelInfo().name &&
      GetModelInfo(m).creditsPerGeneration == Gemini.GetGeminiModelInfo().creditsPerGeneration
    ensures m == Ideogram ==>
      GetModelInfo(m).name == Ideogram.GetIdeogramModelInfo().name &&
      GetModelInfo(m).creditsPerGeneration == Ideogram.GetIdeogramModelInfo().creditsPerGeneration
  {
  }
}

=== FILE: gemini.dfy ===
/** The Gemini adapter (src/lib/ai/gemini.ts): it expands the request into a
    detailed instruction text, asks the text model for a description, and
    answers with a placeholder image link. The model call is a parameter:
    `sdk` says what generateContent did with the text it was given, and
    `encode` stands for encodeURIComponent. */
module Gemini {
  import opened Common
  import opened Pricing
  import opened AiTypes

  /** GeminiGenerationOptions. */
  datatype GeminiOptions = GeminiOptions(
    prompt: string,
    style: Option<string>,
    colors: Option<seq<string>>,
    format: Option<Format>,
    industry: Option<string>)

  /** `options.colors?.join(', ') || 'professional colors'`: an absent list,
      an empty list, and a list that joins to the empty text all give the
      default. */
  function ColorsText(colors: Option<seq<string>>): (t: string)
    ensures colors == None || colors == Some([]) ==> t == "professional colors"
    ensures colors.Some? && Join(colors.value, ", ") != "" ==> t == Join(colors.value, ", ")
    ensures colors.Some? && Join(colors.value, ", ") == "" ==> t == "professional colors"
  {
    OrDefault(if colors.Some? then Some(Join(colors.value, ", ")) else None, "professional colors")
  }

  /** The first and last lines of the template (each written in two pieces
      so that the verifier sees their first and last characters). */
  const LeadLine := "Create a professional logo design " + "with the following requirements:"
  const ClosingLine := "Generate a detailed visual description " + "for a logo that meets these criteria."

  /** The fixed block of the template, from its heading to its last rule. */
  const RequirementLines := [
    "Requirements:",
    "- Clean, scalable vector-style design",
    "- Professional and memorable",
    "- Works in monochrome",
    "- Suitable for business use",
    "- Modern typography if text is included",
    "- High contrast and legible"]

  /** The lines that carry the request's values, with the defaults for the
      ones it leaves out. */
  function HintLines(o: GeminiOptions): seq<string>
  {
    ["- Main concept: " + o.prompt,
     "- Style: " + OrDefault(o.style, "modern"),
     "- Industry: " + OrDefault(o.industry, "general business"),
     "- Colors: " + ColorsText(o.colors),
     "- Format: " + (if o.format.Some? then FormatText(o.format.value) else "square")]
  }

  /** The lines of the instruction template. */
  function PromptLines(o: GeminiOptions): seq<string>
  {
    [LeadLine] + HintLines(o) + [""] + RequirementLines + ["", ClosingLine]
  }

  /** The hints take their defaults when the request leaves them out or
      gives them empty; the main concept is the user's prompt unchanged. */
  lemma HintDefaults(o: GeminiOptions)
    ensures HintLines(o)[0] == "- Main concept: " + o.prompt
    ensures o.style == None || o.style == Some("") ==> HintLines(o)[1] == "- Style: modern"
    ensures o.industry == None || o.industry == Some("") ==> HintLines(o)[2] == "- Industry: general business"
    ensures o.colors == None || o.colors == Some([]) ==> HintLines(o)[3] == "- Colors: professional colors"
    ensures o.format == None ==> HintLines(o)[4] == "- Format: square"
  {
  }

  /** The template has sixteen lines: the lead-in, the five hints, and the
      fixed requirements and closing line. */
  lemma PromptLinesShape(o: GeminiOptions)
    ensures |PromptLines(o)| == 16
    ensures PromptLines(o)[0] == LeadLine && PromptLines(o)[15] == ClosingLine
    ensures PromptLines(o)[1..6] == HintLines(o)
  {
    var lines := PromptLines(o);
    assert lines == [LeadLine] + (HintLines(o) + ([""] + RequirementLines + ["", ClosingLine]));
  }

  /** The template literal before `.trim()`: it opens with a line break and
      closes with a line break and the indentation of the closing backtick,
      around the lines joined by line breaks. */
  function PromptTemplate(o: GeminiOptions): (t: string)
    ensures StartsWith(t, "\n")
    ensures |t| >= 5 && t[|t| - 5..] == "\n    "
  {
    var t := "\n" + Join(PromptLines(o), "\n") + "\n    ";
    assert t[|t| - 5..] == "\n    ";
    t
  }

  /** The enhanced prompt sent to the model: the trimmed template, which
      neither starts nor ends with whitespace. */
  function EnhancedPrompt(o: GeminiOptions): (p: string)
    ensures p != [] ==> !IsJsWhitespace(p[0]) && !IsJsWhitespace(p[|p| - 1])
  {
    Trim(PromptTemplate(o))
  }

  /** Trimming removes only the template's own outer whitespace: the text
      sent is exactly the template's lines joined by line breaks, even when
      the user's prompt or hints begin or end with whitespace. */
  lemma EnhancedPromptIsTemplateBody(o: GeminiOptions)
    ensures EnhancedPrompt(o) == Join(PromptLines(o), "\n")
  {
    var lines := PromptLines(o);
    var body := Join(lines, "\n");
    PromptLinesShape(o);
    assert LeadLine[0] == 'C';
    assert ClosingLine[|ClosingLine| - 1] == '.';
    assert body[0] == lines[0][0];
    assert body[|body| - 1] == lines[15][|lines[15]| - 1];
    TrimPadded("\n", body, "\n    ");
  }

  /** The enhanced prompt opens with the template's first line, and its second
      line is the main concept, which is the user's prompt unchanged. */
  lemma EnhancedPromptStartsWithConcept(o: GeminiOptions)
    ensures StartsWith(EnhancedPrompt(o), LeadLine + "\n" + ("- Main concept: " + o.prompt) + "\n")
  {
    EnhancedPromptIsTemplateBody(o);
    PromptLinesShape(o);
    HintDefaults(o);
    var lines := PromptLines(o);
    assert lines[1] == HintLines(o)[0];
    JoinStartsWithFirstTwo(lines, "\n");
  }

  /** What generateContent did: threw, or answered with a text. */
  datatype SdkOutcome = SdkThrew(thrown: Thrown) | SdkText(text: string)

  const PlaceholderPath := "/api/placeholder-logo?prompt="

  /** generateLogoWithGemini: never throws. A failing model call becomes a
      failure carrying only its message; a model answer becomes a success
      whose image link is the placeholder route for the user's ORIGINAL
      prompt (not the enhanced one) and whose metadata records the model's
      answer as the prompt used. */
  function GenerateLogoWithGemini(o: GeminiOptions, sdk: string -> SdkOutcome, st: Stamp,
                                  encode: string -> string): (r: AdapterResult)
    ensures r.success <==> sdk(EnhancedPrompt(o)).SdkText?
    ensures !r.success ==> r == Failure(MessageOf(sdk(EnhancedPrompt(o)).thrown))
    ensures r.success ==>
      && r.imageUrl == Some(PlaceholderPath + encode(o.prompt))
      && r.imageData == None && r.error == None
      && r.metadata.Some?
      && r.metadata.value.model == Gemini25
      && r.metadata.value.promptUsed == sdk(EnhancedPrompt(o)).text
      && r.metadata.value.timestamp == st.isoTimestamp
      && StartsWith(r.metadata.value.generationId, "gemini_")
      && r.metadata.value.resolution == None
  {
    match sdk(EnhancedPrompt(o))
    case SdkThrew(t) => Failure(MessageOf(t))
    case SdkText(description) =>
      AdapterResult(true, Some(PlaceholderPath + encode(o.prompt)), None, None,
        Some(Metadata(Gemini25, description, st.isoTimestamp, GenerationId("gemini", st), None)))
  }

  /** getGeminiModelInfo. */
  function GetGeminiModelInfo(): (info: AdapterModelInfo)
    ensures info.creditsPerGeneration == CreditCost(Gemini25)
  {
    AdapterModelInfo(
      "Gemini 2.5",
      "Google's latest AI model for fast, cost-effective logo generation",
      1,
      ["Fast generation (2-5 seconds)",
       "Cost-effective",
       "Good for rapid prototyping",
       "Multiple style options"],
      ["Fewer customization options",
       "Standard quality output"])
  }
}

=== FILE: generate_route.dfy ===
/** The generation endpoint (src/app/api/generate/route.ts): validate the
    body, authenticate, load the balance, check affordability, insert a
    pending record, dispatch, and reconcile the record and the balance with
    the outcome. `Handle` is the whole request as a function of the store;
    `GenerationService.Post` performs the same steps on mutable state. */
module GenerateRoute {
  import opened Common
  import opened Pricing
  import opened AiTypes
  import opened Database
  import Dispatcher

  /** A member of the JSON body: missing, present with the expected JSON
      type, or present with another type (null included). */
  datatype Field<+T> = Absent | Given(value: T) | Mistyped

  /** The parsed JSON body, seen through the seven members the schema names
      (other members are dropped by the schema and play no part). */
  datatype RequestJson =
    | NonObject
    | Object(
        prompt: Field<string>,
        model: Field<string>,
        style: Field<string>,
        colors: Field<seq<string>>,
        format: Field<string>,
        industry: Field<string>,
        aspectRatio: Field<string>)

  /** What `request.json()` did. */
  datatype Body = Unparseable | Parsed(json: RequestJson)

  datatype IssueKind = ExpectedObject | Required | InvalidType | TooSmall | TooBig | InvalidEnumValue

  /** One schema violation, at the member it concerns. */
  datatype Issue = Issue(path: string, kind: IssueKind)

  const MaxPromptLength := 500

  function PromptIssues(f: Field<string>): seq<Issue>
  {
    match f
    case Absent => [Issue("prompt", Required)]
    case Mistyped => [Issue("prompt", InvalidType)]
    case Given(p) =>
      if |p| < 1 then [Issue("prompt", TooSmall)]
      else if |p| > MaxPromptLength then [Issue("prompt", TooBig)]
      else []
  }

  function ModelIssues(f: Field<string>): seq<Issue>
  {
    match f
    case Absent => [Issue("model", Required)]
    case Mistyped => [Issue("model", InvalidType)]
    case Given(t) => if ParseModel(t).None? then [Issue("model", InvalidEnumValue)] else []
  }

  /** An optional member of any type other than an enumeration. */
  function OptionalIssues<T>(path: string, f: Field<T>): seq<Issue>
  {
    if f.Mistyped? then [Issue(path, InvalidType)] else []
  }

  function FormatIssues(f: Field<string>): seq<Issue>
  {
    match f
    case Absent => []
    case Mistyped => [Issue("format", InvalidType)]
    case Given(t) => if ParseFormat(t).None? then [Issue("format", InvalidEnumValue)] else []
  }

  function AspectRatioIssues(f: Field<string>): seq<Issue>
  {
    match f
    case Absent => []
    case Mistyped => [Issue("aspectRatio", InvalidType)]
    case Given(t) => if ParseAspectRatio(t).None? then [Issue("aspectRatio", InvalidEnumValue)] else []
  }

  /** All the schema's complaints about a body, member by member in the
      schema's order; the schema reports every failing member, not only the
      first. */
  function Issues(j: RequestJson): seq<Issue>
  {
    match j
    case NonObject => [Issue("", ExpectedObject)]
    case Object(prompt, model, style, colors, format, industry, aspectRatio) =>
      PromptIssues(prompt) + ModelIssues(model) + OptionalIssues("style", style) +
      OptionalIssues("colors", colors) + FormatIssues(format) +
      OptionalIssues("industry", industry) + AspectRatioIssues(aspectRatio)
  }

  /** The schema, stated member by member: a prompt of 1 to 500 characters,
      a known model, optional strings and a string list, and optional
      format and aspect ratio drawn from their enumerations. */
  predicate WellFormed(j: RequestJson)
  {
    && j.Object?
    && j.prompt.Given? && 1 <= |j.prompt.value| <= MaxPromptLength
    && j.model.Given? && ParseModel(j.model.value).Some?
    && !j.style.Mistyped? && !j.colors.Mistyped? && !j.industry.Mistyped?
    && (j.format.Given? ==> ParseFormat(j.format.value).Some?) && !j.format.Mistyped?
    && (j.aspectRatio.Given? ==> ParseAspectRatio(j.aspectRatio.value).Some?) && !j.aspectRatio.Mistyped?
  }

  /** The schema reports nothing exactly when the body meets it. */
  lemma IssuesEmptyIffWellFormed(j: RequestJson)
    ensures Issues(j) == [] <==> WellFormed(j)
  {
  }

  /** The validated request. */
  datatype GenerateRequest = GenerateRequest(
    prompt: string,
    model: AIModel,
    style: Option<string>,
    colors: Option<seq<string>>,
    format: Option<Format>,
    industry: Option<string>,
    aspectRatio: Option<AspectRatio>)

  function FieldValue<T>(f: Field<T>): Option<T>
  {
    if f.Given? then Some(f.value) else None
  }

  /** `generateSchema.parse`: the validated request when the body meets the
      schema, carrying its members unchanged; otherwise the list of issues,
      which is never empty. */
  function Validate(j: RequestJson): (r: Result<GenerateRequest, seq<Issue>>)
    ensures r.Ok? <==> WellFormed(j)
    ensures r.Err? ==> r.error == Issues(j) && |r.error| > 0
    ensures r.Ok? ==>
      && r.value.prompt == j.prompt.value
      && ModelId(r.value.model) == j.model.value
      && r.value.style == FieldValue(j.style)
      && r.value.colors == FieldValue(j.colors)
      && r.value.industry == FieldValue(j.industry)
      && (r.value.format.Some? <==> j.format.Given?)
      && (r.value.format.Some? ==> FormatText(r.value.format.value) == j.format.value)
      && (r.value.aspectRatio.Some? <==> j.aspectRatio.Given?)
      && (r.value.aspectRatio.Some? ==> AspectRatioText(r.value.aspectRatio.value) == j.aspectRatio.value)
  {
    IssuesEmptyIffWellFormed(j);
    if Issues(j) != [] then Err(Issues(j))
    else
      Ok(GenerateRequest(
        j.prompt.value,
        ParseModel(j.model.value).value,
        FieldValue(j.style),
        FieldValue(j.colors),
        if j.format.Given? then ParseFormat(j.format.value) else None,
        FieldValue(j.industry),
        if j.aspectRatio.Given? then ParseAspectRatio(j.aspectRatio.value) else None))
  }

  /** What the outside world does during one request: whether the insert of
      the pending record succeeds, what the adapter call does, and whether
      generateLogo itself throws instead of returning. */
  datatype Env = Env(
    insertSucceeds: bool,
    adapter: Dispatcher.AdapterCall -> Outcome<AdapterResult>,
    dispatchThrows: bool)

  datatype Request = Request(body: Body, authorization: Option<string>)

  /** The JSON bodies the handler answers with. */
  datatype ResponseBody =
    | ErrorBody(error: string)
    | InvalidRequestBody(error: string, details: seq<Issue>)
    | InsufficientCreditsBody(error: string, creditsNeeded: nat, creditsAvailable: Credits)
    | GenerationFailedBody(success: bool, failure: Option<string>, generationId: nat)
    | GeneratedBody(success: bool, generationId: nat, imageUrl: Option<string>, creditsUsed: nat,
                    creditsRemaining: Credits, metadata: Option<Metadata>)

  datatype Response = Response(status: nat, body: ResponseBody)

  const InternalErrorMessage := "Internal server error"
  const InvalidRequestMessage := "Invalid request data"
  const InsufficientCreditsMessage := "Insufficient credits"
  const DatabaseErrorMessage := "Database error"
  const ServiceErrorMessage := "Generation service error"

  /** The options the handler passes to the dispatcher: every validated
      member, the model as its identifier. */
  function OptionsFor(rq: GenerateRequest): (o: Dispatcher.GenerationOptions)
    ensures ParseModel(o.model) == Some(rq.model)
    ensures o.prompt == rq.prompt && o.style == rq.style && o.colors == rq.colors
    ensures o.format == rq.format && o.industry == rq.industry && o.aspectRatio == rq.aspectRatio
  {
    Dispatcher.GenerationOptions(ModelId(rq.model), rq.prompt, rq.style, rq.colors, rq.format,
                                 rq.industry, rq.aspectRatio)
  }

  /** The balance after a successful generation: the sentinel stays, a
      finite balance loses the cost. */
  function Deducted(balance: Credits, cost: nat): (b: Credits)
    requires balance == Unlimited || balance >= cost
    ensures balance == Unlimited ==> b == Unlimited
    ensures balance != Unlimited ==> b >= 0 && b + cost == balance
  {
    if balance == Unlimited then Unlimited else balance - cost
  }

  /** The fields the inserted row takes from the request: the caller, the
      prompt, the model and the model's cost. */
  predicate RecordsRequest(rec: GenerationRecord, u: UserId, rq: GenerateRequest)
  {
    rec.userId == u && rec.prompt == rq.prompt && rec.modelUsed == rq.model &&
    rec.creditsUsed == CreditCost(rq.model)
  }

  /** The row inserted before dispatch: the request's fields, pending, with
      no image and no generation data yet. */
  function PendingRecord(u: UserId, rq: GenerateRequest): (rec: GenerationRecord)
    ensures RecordsRequest(rec, u, rq)
    ensures rec.status == Pending && rec.imageUrl == None && rec.generationData == NoData
  {
    GenerationRecord(u, rq.prompt, rq.model, CreditCost(rq.model), None, NoData, Pending)
  }

  /** The POST handler. It answers with one of six statuses; a success
      always carries the generated body, and no 4xx answer changes the
      store. */
  function Handle(s: Store, req: Request, env: Env): (r: (Response, Store))
    ensures r.0.status in {200, 400, 401, 402, 404, 500}
    ensures r.0.status == 200 <==> r.0.body.GeneratedBody?
    ensures 400 <= r.0.status < 500 ==> r.1 == s
  {
    match req.body
    case Unparseable => (Response(500, ErrorBody(InternalErrorMessage)), s)
    case Parsed(j) =>
      match Validate(j)
      case Err(issues) => (Response(400, InvalidRequestBody(InvalidRequestMessage, issues)), s)
      case Ok(rq) =>
        match Authenticate(s, req.authorization)
        case Err(message) => (Response(401, ErrorBody(message)), s)
        case Ok(u) =>
          if u !in s.users then (Response(404, ErrorBody(UserNotFoundMessage)), s)
          else Charge(s, u, rq, env)
  }

  /** From the balance check on, for a known user: 402 exactly when the
      balance does not cover the model, and then nothing changes; otherwise
      200 or 500. */
  function Charge(s: Store, u: UserId, rq: GenerateRequest, env: Env): (r: (Response, Store))
    requires u in s.users
    ensures r.0.status in {200, 402, 500}
    ensures r.0.status == 402 <==> !CanAffordGeneration(s.users[u].creditsRemaining, rq.model)
    ensures r.0.status == 402 ==> r.1 == s
    ensures r.0.status == 200 <==> r.0.body.GeneratedBody?
  {
    var balance := s.users[u].creditsRemaining;
    var cost := CreditCost(rq.model);
    if !CanAffordGeneration(balance, rq.model) then
      (Response(402, InsufficientCreditsBody(InsufficientCreditsMessage, cost, balance)), s)
    else if !env.insertSucceeds then
      (Response(500, ErrorBody(DatabaseErrorMessage)), s)
    else
      var id := s.nextId;
      var inserted := s.(records := s.records[id := PendingRecord(u, rq)], nextId := id + 1);
      if env.dispatchThrows then
        (Response(500, ErrorBody(InternalErrorMessage)),
         inserted.(records := inserted.records[id := PendingRecord(u, rq).(
           generationData := ErrorData(Some(ServiceErrorMessage)), status := Failed)]))
      else
        Reconcile(inserted, id, u, Dispatcher.GenerateLogo(OptionsFor(rq), env.adapter))
  }

  /** Bringing the pending record and the balance in line with the
      dispatcher's result: a success completes the record and deducts the
      record's cost, a failure marks it failed and leaves the balance. Either
      way only that record and that user's balance can change. */
  function Reconcile(s: Store, id: nat, u: UserId, result: Dispatcher.GenerationResult): (r: (Response, Store))
    requires id in s.records && u in s.users
    requires CanAffordGeneration(s.users[u].creditsRemaining, s.records[id].modelUsed)
    requires s.records[id].creditsUsed == CreditCost(s.records[id].modelUsed)
    ensures r.0.status == (if result.success then 200 else 500)
    ensures r.1.sessions == s.sessions && r.1.nextId == s.nextId
    ensures r.1.records.Keys == s.records.Keys && r.1.users.Keys == s.users.Keys
    ensures forall k :: k in s.records && k != id ==> r.1.records[k] == s.records[k]
    ensures forall v :: v in s.users && v != u ==> r.1.users[v] == s.users[v]
    ensures r.1.records[id].status == (if result.success then Completed else Failed)
    ensures var (before, after) := (s.records[id], r.1.records[id]);
      after.userId == before.userId && after.prompt == before.prompt &&
      after.modelUsed == before.modelUsed && after.creditsUsed == before.creditsUsed
    ensures r.1.records[id].imageUrl == (if result.success then result.imageUrl else s.records[id].imageUrl)
    ensures r.1.records[id].generationData ==
      (if !result.success then ErrorData(result.error)
       else if result.metadata.Some? then MetadataData(result.metadata.value)
       else s.records[id].generationData)
    ensures r.1.users[u].creditsRemaining ==
      (if result.success then Deducted(s.users[u].creditsRemaining, s.records[id].creditsUsed)
       else s.users[u].creditsRemaining)
  {
    var rec := s.records[id];
    if result.success then
      var newCredits := Deducted(s.users[u].creditsRemaining, rec.creditsUsed);
      (Response(200, GeneratedBody(true, id, result.imageUrl, rec.creditsUsed, newCredits, result.metadata)),
       s.(records := s.records[id := rec.(status := Completed, imageUrl := result.imageUrl,
            generationData := if result.metadata.Some? then MetadataData(result.metadata.value) else rec.generationData)],
          users := s.users[u := s.users[u].(creditsRemaining := newCredits)]))
    else
      (Response(500, GenerationFailedBody(false, result.error, id)),
       s.(records := s.records[id := rec.(status := Failed, generationData := ErrorData(result.error))]))
  }

  // ---------------------------------------------------------------------
  // One request

  /** A body that is not JSON ends in the outer catch: 500, nothing changed. */
  lemma UnparseableBodyIs500(s: Store, req: Request, env: Env)
    requires req.body.Unparseable?
    ensures Handle(s, req, env) == (Response(500, ErrorBody(InternalErrorMessage)), s)
  {
  }

  /** A body the schema rejects is answered with 400 and the issues, before
      the authorization header is looked at: with or without credentials,
      nothing is read or written. */
  lemma InvalidBodyIs400(s: Store, req: Request, env: Env)
    requires req.body.Parsed? && !WellFormed(req.body.json)
    ensures Handle(s, req, env) == (Response(400, InvalidRequestBody(InvalidRequestMessage, Issues(req.body.json))), s)
    ensures Handle(s, req, env) == Handle(s, req.(authorization := None), env)
  {
  }

  /** A valid body with a missing or malformed header, or with a token the
      authentication service rejects, is answered with 401 and changes
      nothing; the header's token is what follows "Bearer ". */
  lemma AuthenticationFailureIs401(s: Store, req: Request, env: Env)
    requires req.body.Parsed? && WellFormed(req.body.json)
    requires BearerToken(req.authorization).None? || BearerToken(req.authorization).value !in s.sessions
    ensures Handle(s, req, env).1 == s
    ensures BearerToken(req.authorization).None? ==>
      Handle(s, req, env).0 == Response(401, ErrorBody(UnauthorizedMessage))
    ensures BearerToken(req.authorization).Some? ==>
      Handle(s, req, env).0 == Response(401, ErrorBody(InvalidTokenMessage))
  {
  }

  /** A user the balance query cannot find is answered with 404. */
  lemma UnknownUserIs404(s: Store, req: Request, env: Env)
    requires req.body.Parsed? && WellFormed(req.body.json)
    requires Authenticate(s, req.authorization).Ok? && Authenticate(s, req.authorization).value !in s.users
    ensures Handle(s, req, env) == (Response(404, ErrorBody(UserNotFoundMessage)), s)
  {
  }

  /** A balance that does not afford the model is answered with 402, naming
      the cost and the stored balance; no record is inserted and the balance
      is not touched. */
  lemma InsufficientCreditsIs402(s: Store, u: UserId, rq: GenerateRequest, env: Env)
    requires u in s.users && !CanAffordGeneration(s.users[u].creditsRemaining, rq.model)
    ensures Charge(s, u, rq, env) ==
      (Response(402, InsufficientCreditsBody(InsufficientCreditsMessage, CreditCost(rq.model), s.users[u].creditsRemaining)), s)
  {
  }

  /** A failed insert is answered with 500 "Database error" and changes
      nothing. */
  lemma FailedInsertIs500(s: Store, u: UserId, rq: GenerateRequest, env: Env)
    requires u in s.users && CanAffordGeneration(s.users[u].creditsRemaining, rq.model)
    requires !env.insertSucceeds
    ensures Charge(s, u, rq, env) == (Response(500, ErrorBody(DatabaseErrorMessage)), s)
  {
  }

  /** The dispatcher never sees an unknown model from this handler, and what
      it charges, when it charges, is the cost of the record inserted. */
  lemma DispatchedModelIsSupported(rq: GenerateRequest, adapter: Dispatcher.AdapterCall -> Outcome<AdapterResult>)
    ensures ParseModel(OptionsFor(rq).model) == Some(rq.model)
    ensures Dispatcher.Route(OptionsFor(rq)).Some?
    ensures Dispatcher.GenerateLogo(OptionsFor(rq), adapter).creditsUsed == 0 ||
            Dispatcher.GenerateLogo(OptionsFor(rq), adapter).creditsUsed == CreditCost(rq.model)
  {
    Dispatcher.CreditsUsedRule(OptionsFor(rq), adapter);
  }

  /** Whether a request inserted a record. */
  predicate Inserted(s: Store, s2: Store)
  {
    s2.nextId == s.nextId + 1 && s.nextId in s2.records
  }

  /** What a request took from user v's balance: the inserted record's cost
      when that record belongs to v and ended completed. */
  function ChargeOf(s: Store, s2: Store, v: UserId): nat
  {
    if Inserted(s, s2) && s2.records[s.nextId].userId == v && s2.records[s.nextId].status == Completed
    then s2.records[s.nextId].creditsUsed else 0
  }

  /** What one request leaves alone: the store stays valid, sessions and
      user rows other than balances stay, old records stay, and at most one
      record is added, under the next id. */
  ghost predicate Framed(s: Store, s2: Store)
  {
    && Valid(s2)
    && s2.sessions == s.sessions
    && s2.users.Keys == s.users.Keys
    && (forall v :: v in s.users ==>
          s2.users[v].subscriptionTier == s.users[v].subscriptionTier &&
          s2.users[v].subscriptions == s.users[v].subscriptions)
    && (s2.nextId == s.nextId || Inserted(s, s2))
    && s2.records.Keys == s.records.Keys + (if Inserted(s, s2) then {s.nextId} else {})
    && (forall id :: id in s.records ==> s2.records[id] == s.records[id])
  }

  /** The record a request adds is for a known user, is never left pending,
      and carries the cost of its model. */
  ghost predicate NewRecordSettled(s: Store, s2: Store)
  {
    Inserted(s, s2) ==>
      var rec := s2.records[s.nextId];
      rec.status != Pending && rec.userId in s.users && rec.creditsUsed == CreditCost(rec.modelUsed)
  }

  /** Every balance changes by exactly what ChargeOf says, the sentinel
      excepted, and a finite balance is never driven below zero. */
  ghost predicate BalancesFollowCharge(s: Store, s2: Store)
    requires s2.users.Keys == s.users.Keys
  {
    forall v :: v in s.users ==>
      && s2.users[v].creditsRemaining ==
           (if s.users[v].creditsRemaining == Unlimited then Unlimited
            else s.users[v].creditsRemaining - ChargeOf(s, s2, v))
      && (s.users[v].creditsRemaining >= 0 ==> s2.users[v].creditsRemaining >= 0)
  }

  /** Everything one request may change, and how. */
  lemma {:induction false} HandleEffect(s: Store, req: Request, env: Env)
    requires Valid(s)
    ensures Framed(s, Handle(s, req, env).1)
    ensures NewRecordSettled(s, Handle(s, req, env).1)
    ensures BalancesFollowCharge(s, Handle(s, req, env).1)
    ensures Inserted(s, Handle(s, req, env).1) ==>
      && req.body.Parsed? && Validate(req.body.json).Ok?
      && Authenticate(s, req.authorization).Ok?
      && RecordsRequest(Handle(s, req, env).1.records[s.nextId],
                        Authenticate(s, req.authorization).value, Validate(req.body.json).value)
  {
    match req.body
    case Unparseable =>
    case Parsed(j) =>
      match Validate(j)
      case Err(_) =>
      case Ok(rq) =>
        match Authenticate(s, req.authorization)
        case Err(_) =>
        case Ok(u) =>
          if u in s.users {
            ChargeEffect(s, u, rq, env);
          }
  }

  /** One request changes a finite balance exactly when it completes a
      record for that user, and never changes the unlimited sentinel. */
  lemma {:induction false} BalanceChangesIffCompleted(s: Store, req: Request, env: Env, v: UserId)
    requires Valid(s) && v in s.users
    ensures var s2 := Handle(s, req, env).1;
      && v in s2.users
      && (s.users[v].creditsRemaining == Unlimited ==> s2.users[v].creditsRemaining == Unlimited)
      && (s.users[v].creditsRemaining != Unlimited ==>
            (s2.users[v].creditsRemaining != s.users[v].creditsRemaining <==>
               Inserted(s, s2) && s2.records[s.nextId].userId == v && s2.records[s.nextId].status == Completed))
  {
    HandleEffect(s, req, env);
  }

  /** The store right after the pending record is inserted. */
  function WithPending(s: Store, u: UserId, rq: GenerateRequest): Store
  {
    s.(records := s.records[s.nextId := PendingRecord(u, rq)], nextId := s.nextId + 1)
  }

  lemma {:induction false} ChargeEffect(s: Store, u: UserId, rq: GenerateRequest, env: Env)
    requires Valid(s) && u in s.users
    ensures Framed(s, Charge(s, u, rq, env).1)
    ensures Inserted(s, Charge(s, u, rq, env).1) ==>
      RecordsRequest(Charge(s, u, rq, env).1.records[s.nextId], u, rq)
    ensures NewRecordSettled(s, Charge(s, u, rq, env).1)
    ensures BalancesFollowCharge(s, Charge(s, u, rq, env).1)
  {
    var balance := s.users[u].creditsRemaining;
    if CanAffordGeneration(balance, rq.model) && env.insertSucceeds {
      assert s.nextId !in s.records;
      if env.dispatchThrows {
        var s2 := Charge(s, u, rq, env).1;
        assert Inserted(s, s2);
        assert s2.users == s.users;
      } else {
        var result := Dispatcher.GenerateLogo(OptionsFor(rq), env.adapter);
        assert Charge(s, u, rq, env).1 == Reconcile(WithPending(s, u, rq), s.nextId, u, result).1;
        ReconcileEffect(s, u, rq, result);
      }
    }
  }

  lemma {:induction false} ReconcileEffect(s: Store, u: UserId, rq: GenerateRequest, result: Dispatcher.GenerationResult)
    requires Valid(s) && u in s.users && CanAffordGeneration(s.users[u].creditsRemaining, rq.model)
    ensures var s2 := Reconcile(WithPending(s, u, rq), s.nextId, u, result).1;
      Framed(s, s2) && NewRecordSettled(s, s2) && BalancesFollowCharge(s, s2) &&
      RecordsRequest(s2.records[s.nextId], u, rq)
  {
    assert s.nextId !in s.records;
    var s2 := Reconcile(WithPending(s, u, rq), s.nextId, u, result).1;
    assert Inserted(s, s2);
    assert s2.records[s.nextId].status == (if result.success then Completed else Failed);
    forall v | v in s.users
      ensures s2.users[v].creditsRemaining ==
        if s.users[v].creditsRemaining == Unlimited then Unlimited
        else s.users[v].creditsRemaining - ChargeOf(s, s2, v)
      ensures s.users[v].creditsRemaining >= 0 ==> s2.users[v].creditsRemaining >= 0
    {
      if v != u {
        assert s2.users[v] == s.users[v];
      }
    }
  }

  /** The response and the store agree: 200 is answered exactly when a
      record was inserted and completed, and then the response names that
      record, its cost, and the balance now stored. */
  lemma {:induction false} SuccessResponseMatchesStore(s: Store, req: Request, env: Env)
    requires Valid(s)
    ensures var (resp, s2) := Handle(s, req, env);
      && (resp.status == 200 <==> Inserted(s, s2) && s2.records[s.nextId].status == Completed)
      && (resp.status == 200 ==>
            var rec := s2.records[s.nextId];
            && resp.body.GeneratedBody?
            && resp.body.generationId == s.nextId
            && resp.body.creditsUsed == rec.creditsUsed == CreditCost(rec.modelUsed)
            && rec.userId in s2.users
            && Authenticate(s2, req.authorization) == Ok(rec.userId)
            && resp.body.creditsRemaining == s2.users[rec.userId].creditsRemaining
            && resp.body.success
            && rec.imageUrl == resp.body.imageUrl
            && (resp.body.metadata.Some? ==> rec.generationData == MetadataData(resp.body.metadata.value)))
  {
    match req.body
    case Unparseable =>
    case Parsed(j) =>
      match Validate(j)
      case Err(_) =>
      case Ok(rq) =>
        match Authenticate(s, req.authorization)
        case Err(_) =>
        case Ok(u) =>
          if u in s.users {
            var balance := s.users[u].creditsRemaining;
            if CanAffordGeneration(balance, rq.model) && env.insertSucceeds {
              assert s.nextId !in s.records;
            }
          }
  }

  /** A failed generation leaves a failed record with the error, does not
      touch any balance, and the 500 response carries the record's id. */
  lemma {:induction false} FailedGenerationKeepsBalance(s: Store, u: UserId, rq: GenerateRequest, env: Env)
    requires Valid(s) && u in s.users
    requires CanAffordGeneration(s.users[u].creditsRemaining, rq.model) && env.insertSucceeds && !env.dispatchThrows
    requires !Dispatcher.GenerateLogo(OptionsFor(rq), env.adapter).success
    ensures var (resp, s2) := Charge(s, u, rq, env);
      && resp == Response(500, GenerationFailedBody(false, Dispatcher.GenerateLogo(OptionsFor(rq), env.adapter).error, s.nextId))
      && s2.users == s.users
      && s2.records[s.nextId].status == Failed
      && s2.records[s.nextId].generationData == ErrorData(Dispatcher.GenerateLogo(OptionsFor(rq), env.adapter).error)
      && RecordsRequest(s2.records[s.nextId], u, rq)
  {
  }

  /** A successful generation completes the record with the result's image
      and metadata, deducts the cost from the caller alone, and answers 200
      with the dispatcher's image and metadata. */
  lemma {:induction false} SuccessfulGenerationCompletesRecord(s: Store, u: UserId, rq: GenerateRequest, env: Env)
    requires Valid(s) && u in s.users
    requires CanAffordGeneration(s.users[u].creditsRemaining, rq.model) && env.insertSucceeds && !env.dispatchThrows
    requires Dispatcher.GenerateLogo(OptionsFor(rq), env.adapter).success
    ensures var (resp, s2) := Charge(s, u, rq, env);
      var r := Dispatcher.GenerateLogo(OptionsFor(rq), env.adapter);
      var remaining := Deducted(s.users[u].creditsRemaining, CreditCost(rq.model));
      && resp == Response(200, GeneratedBody(true, s.nextId, r.imageUrl, CreditCost(rq.model), remaining, r.metadata))
      && s2.users == s.users[u := s.users[u].(creditsRemaining := remaining)]
      && s2.records[s.nextId].status == Completed
      && RecordsRequest(s2.records[s.nextId], u, rq)
      && s2.records[s.nextId].imageUrl == r.imageUrl
      && s2.records[s.nextId].generationData == (if r.metadata.Some? then MetadataData(r.metadata.value) else NoData)
  {
  }

  /** A throwing dispatch marks the record failed with the service error
      before the outer handler answers 500, and touches no balance. */
  lemma {:induction false} ThrowingDispatchMarksFailed(s: Store, u: UserId, rq: GenerateRequest, env: Env)
    requires Valid(s) && u in s.users
    requires CanAffordGeneration(s.users[u].creditsRemaining, rq.model) && env.insertSucceeds && env.dispatchThrows
    ensures var (resp, s2) := Charge(s, u, rq, env);
      && resp == Response(500, ErrorBody(InternalErrorMessage))
      && s2.users == s.users
      && s2.records[s.nextId].status == Failed
      && s2.records[s.nextId].generationData == ErrorData(Some(ServiceErrorMessage))
      && RecordsRequest(s2.records[s.nextId], u, rq)
  {
  }

  /** A worked case: a caller with 5 credits asks for a baseline-model logo
      and the adapter succeeds; the answer is 200 with 1 credit used and 4
      remaining, and the stored record is completed. */
  lemma BaselineGenerationFromFive(s: Store, req: Request, env: Env, token: string, u: UserId)
    requires Valid(s)
    requires req.authorization == Some(BearerPrefix + token) && token in s.sessions && s.sessions[token] == u
    requires u in s.users && s.users[u].creditsRemaining == 5
    requires req.body.Parsed? && WellFormed(req.body.json) && req.body.json.model.value == ModelId(Gemini25)
    requires env.insertSucceeds && !env.dispatchThrows
    requires var call := Dispatcher.Route(OptionsFor(Validate(req.body.json).value));
      call.Some? && env.adapter(call.value).Value? && env.adapter(call.value).value.success
    ensures var (resp, s2) := Handle(s, req, env);
      && resp.status == 200 && resp.body.creditsUsed == 1 && resp.body.creditsRemaining == 4
      && s2.users[u].creditsRemaining == 4 && s2.records[s.nextId].status == Completed
  {
    BearerTokenRoundTrip(token);
    var rq := Validate(req.body.json).value;
    assert rq.model == Gemini25;
  }

  // ---------------------------------------------------------------------
  // Requests one after another

  datatype Step = Step(req: Request, env: Env)

  /** The store after handling the requests in order. */
  function Run(s: Store, steps: seq<Step>): Store
    decreases |steps|
  {
    if steps == [] then s
    else
      var last := steps[|steps| - 1];
      Handle(Run(s, steps[..|steps| - 1]), last.req, last.env).1
  }

  /** The credits charged to user v by the completed records with ids in
      [lo, hi). */
  function Charged(records: map<nat, GenerationRecord>, v: UserId, lo: nat, hi: nat): nat
    decreases hi
  {
    if hi <= lo then 0
    else
      Charged(records, v, lo, hi - 1) +
      (if hi - 1 in records && records[hi - 1].userId == v && records[hi - 1].status == Completed
       then records[hi - 1].creditsUsed else 0)
  }

  /** Charged only looks at the records in its range. */
  lemma {:induction false} ChargedFrame(r1: map<nat, GenerationRecord>, r2: map<nat, GenerationRecord>,
                                        v: UserId, lo: nat, hi: nat)
    requires forall id :: lo <= id < hi ==> (id in r1 <==> id in r2) && (id in r1 ==> r1[id] == r2[id])
    ensures Charged(r1, v, lo, hi) == Charged(r2, v, lo, hi)
    decreases hi
  {
    if hi > lo {
      ChargedFrame(r1, r2, v, lo, hi - 1);
    }
  }

  /** What every run from a valid store leaves alone: the store stays valid,
      its sessions and user set stay, the counter only grows, and old records
      are never altered. */
  lemma {:induction false} RunFrame(s: Store, steps: seq<Step>)
    requires Valid(s)
    ensures var f := Run(s, steps);
      && Valid(f)
      && f.sessions == s.sessions
      && f.users.Keys == s.users.Keys
      && f.nextId >= s.nextId
      && (forall id :: id in s.records ==> id in f.records && f.records[id] == s.records[id])
    decreases |steps|
  {
    if steps != [] {
      var last := steps[|steps| - 1];
      RunFrame(s, steps[..|steps| - 1]);
      HandleEffect(Run(s, steps[..|steps| - 1]), last.req, last.env);
    }
  }

  /** Every record a run adds is for a known user and ends completed or
      failed: no request leaves a pending record behind. */
  lemma {:induction false} RunSettlesRecords(s: Store, steps: seq<Step>)
    requires Valid(s)
    ensures var f := Run(s, steps);
      forall id :: s.nextId <= id < f.nextId ==>
        id in f.records && f.records[id].status != Pending && f.records[id].userId in s.users
    decreases |steps|
  {
    if steps != [] {
      var last := steps[|steps| - 1];
      var m := Run(s, steps[..|steps| - 1]);
      RunSettlesRecords(s, steps[..|steps| - 1]);
      RunFrame(s, steps[..|steps| - 1]);
      HandleEffect(m, last.req, last.env);
      SettleStep(s, m, Handle(m, last.req, last.env).1);
    }
  }

  /** One step of RunSettlesRecords, over any two stores related as one
      request relates them. */
  lemma SettleStep(s: Store, m: Store, f: Store)
    requires s.nextId <= m.nextId && m.users.Keys == s.users.Keys
    requires forall id :: s.nextId <= id < m.nextId ==>
      id in m.records && m.records[id].status != Pending && m.records[id].userId in s.users
    requires Framed(m, f) && NewRecordSettled(m, f)
    ensures forall id :: s.nextId <= id < f.nextId ==>
      id in f.records && f.records[id].status != Pending && f.records[id].userId in s.users
  {
    forall id | s.nextId <= id < f.nextId
      ensures id in f.records && f.records[id].status != Pending && f.records[id].userId in s.users
    {
      if id < m.nextId {
        assert m.records[id] == f.records[id];
      }
    }
  }

  /** One step of the ledger, over any two stores related as one request
      relates them. */
  lemma {:induction false} LedgerStep(lo: nat, initial: int, m: Store, f: Store, v: UserId)
    requires Valid(m) && v in m.users && lo <= m.nextId
    requires Framed(m, f) && BalancesFollowCharge(m, f)
    requires m.users[v].creditsRemaining >= 0
    requires m.users[v].creditsRemaining + Charged(m.records, v, lo, m.nextId) == initial
    ensures f.users[v].creditsRemaining >= 0
    ensures f.users[v].creditsRemaining + Charged(f.records, v, lo, f.nextId) == initial
  {
    ChargedFrame(m.records, f.records, v, lo, m.nextId);
    if Inserted(m, f) {
      assert Charged(f.records, v, lo, f.nextId) ==
        Charged(f.records, v, lo, m.nextId) + ChargeOf(m, f, v);
    }
  }

  /** Balances over a run: an unlimited balance stays unlimited, and a finite
      one never drops below zero and drops by exactly the credits charged by
      the completed records the run added for that user. */
  lemma {:induction false} RunLedger(s: Store, steps: seq<Step>, v: UserId)
    requires Valid(s) && v in s.users
    ensures var f := Run(s, steps);
      && v in f.users
      && (s.users[v].creditsRemaining == Unlimited ==> f.users[v].creditsRemaining == Unlimited)
      && (s.users[v].creditsRemaining >= 0 ==>
            f.users[v].creditsRemaining >= 0 &&
            f.users[v].creditsRemaining + Charged(f.records, v, s.nextId, f.nextId) == s.users[v].creditsRemaining)
    decreases |steps|
  {
    if steps != [] {
      var last := steps[|steps| - 1];
      var m := Run(s, steps[..|steps| - 1]);
      RunLedger(s, steps[..|steps| - 1], v);
      RunFrame(s, steps[..|steps| - 1]);
      HandleEffect(m, last.req, last.env);
      if s.users[v].creditsRemaining >= 0 {
        LedgerStep(s.nextId, s.users[v].creditsRemaining, m, Handle(m, last.req, last.env).1, v);
      }
    }
  }

  // ---------------------------------------------------------------------
  // The handler on mutable state

  /** The store as objects whose fields the handler updates in place. */
  class GenerationService {
    var sessions: map<string, UserId>
    var users: map<UserId, UserRow>
    var records: map<nat, GenerationRecord>
    var nextId: nat

    function Snapshot(): Store
      reads this
    {
      Store(sessions, users, records, nextId)
    }

    ghost predicate Inv()
      reads this
    {
      Valid(Snapshot())
    }

    constructor (s: Store)
      requires Valid(s)
      ensures Snapshot() == s && Inv()
    {
      sessions := s.sessions;
      users := s.users;
      records := s.records;
      nextId := s.nextId;
    }

    /** POST /api/generate: validate, authenticate and look the user up,
        then hand over to ChargeUser. */
    method Post(req: Request, env: Env) returns (resp: Response)
      requires Inv()
      modifies this
      ensures (resp, Snapshot()) == Handle(old(Snapshot()), req, env)
      ensures Inv()
    {
      ghost var s := Snapshot();
      HandleEffect(s, req, env);
      if req.body.Unparseable? {
        return Response(500, ErrorBody(InternalErrorMessage));
      }
      var validated := Validate(req.body.json);
      if validated.Err? {
        return Response(400, InvalidRequestBody(InvalidRequestMessage, validated.error));
      }
      var auth := Authenticate(Snapshot(), req.authorization);
      if auth.Err? {
        return Response(401, ErrorBody(auth.error));
      }
      if auth.value !in users {
        return Response(404, ErrorBody(UserNotFoundMessage));
      }
      resp := ChargeUser(auth.value, validated.value, env);
    }

    /** The balance check, the insert of the pending record, and the
        dispatch. */
    method ChargeUser(u: UserId, rq: GenerateRequest, env: Env) returns (resp: Response)
      requires Inv() && u in users
      modifies this
      ensures (resp, Snapshot()) == Charge(old(Snapshot()), u, rq, env)
    {
      var balance := users[u].creditsRemaining;
      var cost := CreditCost(rq.model);
      if !CanAffordGeneration(balance, rq.model) {
        return Response(402, InsufficientCreditsBody(InsufficientCreditsMessage, cost, balance));
      }
      if !env.insertSucceeds {
        return Response(500, ErrorBody(DatabaseErrorMessage));
      }
      var id := nextId;
      records := records[id := PendingRecord(u, rq)];
      nextId := nextId + 1;
      if env.dispatchThrows {
        records := records[id := records[id].(generationData := ErrorData(Some(ServiceErrorMessage)), status := Failed)];
        return Response(500, ErrorBody(InternalErrorMessage));
      }
      var result := Dispatcher.GenerateLogo(OptionsFor(rq), env.adapter);
      resp := ReconcileRecord(id, u, result);
    }

    /** Rewrites the pending record, and on success the user's balance. */
    method ReconcileRecord(id: nat, u: UserId, result: Dispatcher.GenerationResult) returns (resp: Response)
      requires id in records && u in users
      requires CanAffordGeneration(users[u].creditsRemaining, records[id].modelUsed)
      requires records[id].creditsUsed == CreditCost(records[id].modelUsed)
      modifies this
      ensures (resp, Snapshot()) == Reconcile(old(Snapshot()), id, u, result)
    {
      var rec := records[id];
      if result.success {
        records := records[id := rec.(status := Completed, imageUrl := result.imageUrl,
          generationData := if result.metadata.Some? then MetadataData(result.metadata.value) else rec.generationData)];
        var newCredits := Deducted(users[u].creditsRemaining, rec.creditsUsed);
        users := users[u := users[u].(creditsRemaining := newCredits)];
        resp := Response(200, GeneratedBody(true, id, result.imageUrl, rec.creditsUsed, newCredits, result.metadata));
      } else {
        records := records[id := rec.(status := Failed, generationData := ErrorData(result.error))];
        resp := Response(500, GenerationFailedBody(false, result.error, id));
      }
    }
  }
}

=== FILE: ideogram.dfy ===
/** The Ideogram adapter (src/lib/ai/ideogram.ts): it builds the image
    request, sends one HTTP call and maps every outcome of that call to an
    adapter result; the client it uses is created lazily and then reused.
    The HTTP exchange is a parameter: `fetch` says what the network did with
    the request the adapter built. */
module Ideogram {
  import opened Common
  import opened Pricing
  import opened AiTypes

  datatype IdeogramVersion = V2 | V2Turbo

  function VersionText(v: IdeogramVersion): string
  {
    match v
    case V2 => "V_2"
    case V2Turbo => "V_2_TURBO"
  }

  datatype MagicPromptOption = MagicAuto | MagicOn | MagicOff

  function MagicPromptText(m: MagicPromptOption): string
  {
    match m
    case MagicAuto => "AUTO"
    case MagicOn => "ON"
    case MagicOff => "OFF"
  }

  /** IdeogramGenerationOptions. The style is declared as an enumeration but
      the dispatcher passes whatever string the request carried, so it is kept
      as a string here. */
  datatype IdeogramOptions = IdeogramOptions(
    prompt: string,
    style: Option<string>,
    aspectRatio: Option<AspectRatio>,
    model: Option<IdeogramVersion>,
    magicPromptOption: Option<MagicPromptOption>)

  /** The `image_request` object of the payload. */
  datatype ImageRequest = ImageRequest(
    prompt: string,
    aspectRatio: AspectRatio,
    model: IdeogramVersion,
    magicPromptOption: MagicPromptOption,
    styleType: string)

  /** The POST request the adapter sends. */
  datatype HttpRequest = HttpRequest(
    url: string,
    httpMethod: string,
    apiKeyHeader: string,
    contentType: string,
    imageRequest: ImageRequest)

  /** One element of the `data` array of a response. */
  datatype ImageDatum = ImageDatum(url: Option<string>, b64Json: Option<string>, resolution: Option<string>)

  /** What `response.json()` did: threw, or gave an object whose `data` field
      may be missing. */
  datatype JsonBody = BodyThrew(thrown: Thrown) | ImageData(data: Option<seq<ImageDatum>>)

  /** What `fetch` did: threw, or produced a response. */
  datatype FetchOutcome =
    | FetchThrew(thrown: Thrown)
    | Responded(status: nat, statusText: string, body: JsonBody)

  const Endpoint := "https://api.ideogram.ai/generate"
  const EnhancePrefix := "Professional logo design: "
  const EnhanceSuffix :=
    ". \nClean, modern, scalable vector style. \nHigh contrast, memorable, suitable for business use. \n" +
    "Minimal background, crisp lines, professional typography if text included. \nCorporate quality, brandable design."
  const NoImageData := "No image data returned from Ideogram"
  const DefaultResolution := "1024x1024"
  const MissingKeyMessage := "IDEOGRAM_API_KEY environment variable is required"

  /** `response.ok`: the status is in the 2xx range. */
  predicate IsOk(status: nat)
  {
    200 <= status <= 299
  }

  function HttpErrorMessage(status: nat, statusText: string): string
  {
    "Ideogram API error: " + NatToString(status) + " " + statusText
  }

  /** enhanceLogoPrompt: the user's prompt wrapped in fixed instructions. The
      wrapped text starts with the fixed lead-in followed by the prompt, and
      the prompt can be cut back out of it. */
  function EnhanceLogoPrompt(original: string): (e: string)
    ensures StartsWith(e, EnhancePrefix + original)
    ensures |e| == |EnhancePrefix| + |original| + |EnhanceSuffix|
    ensures OriginalPrompt(e) == original
  {
    EnhancePrefix + original + EnhanceSuffix
  }

  /** The part of an enhanced prompt between the lead-in and the fixed tail. */
  function OriginalPrompt(e: string): string
  {
    if |e| < |EnhancePrefix| + |EnhanceSuffix| then ""
    else e[|EnhancePrefix|..|e| - |EnhanceSuffix|]
  }

  /** Different prompts give different enhanced prompts. */
  lemma EnhanceLogoPromptInjective(p1: string, p2: string)
    requires EnhanceLogoPrompt(p1) == EnhanceLogoPrompt(p2)
    ensures p1 == p2
  {
    assert OriginalPrompt(EnhanceLogoPrompt(p1)) == p1;
  }

  /** The payload of generateLogo, with the defaults for absent options: the
      user's prompt can be recovered from the prompt sent, and the style sent
      is never empty. */
  function BuildImageRequest(o: IdeogramOptions): (rq: ImageRequest)
    ensures OriginalPrompt(rq.prompt) == o.prompt
    ensures rq.styleType != ""
  {
    ImageRequest(
      EnhanceLogoPrompt(o.prompt),
      if o.aspectRatio.Some? then o.aspectRatio.value else Ratio1x1,
      if o.model.Some? then o.model.value else V2,
      if o.magicPromptOption.Some? then o.magicPromptOption.value else MagicAuto,
      OrDefault(o.style, "design"))
  }

  /** Every option the caller supplies reaches the payload unchanged, and
      every one it leaves out takes its default: aspect ratio 1:1, model V_2,
      magic prompt AUTO and style "design" (an empty style counts as absent). */
  lemma PayloadDefaults(o: IdeogramOptions)
    ensures BuildImageRequest(o).prompt == EnhanceLogoPrompt(o.prompt)
    ensures BuildImageRequest(o).aspectRatio == (if o.aspectRatio == None then Ratio1x1 else o.aspectRatio.value)
    ensures BuildImageRequest(o).model == (if o.model == None then V2 else o.model.value)
    ensures BuildImageRequest(o).magicPromptOption == (if o.magicPromptOption == None then MagicAuto else o.magicPromptOption.value)
    ensures o.style == None || o.style == Some("") ==> BuildImageRequest(o).styleType == "design"
    ensures o.style.Some? && o.style.value != "" ==> BuildImageRequest(o).styleType == o.style.value
    ensures o.model == None ==> VersionText(BuildImageRequest(o).model) == "V_2"
    ensures o.magicPromptOption == None ==> MagicPromptText(BuildImageRequest(o).magicPromptOption) == "AUTO"
  {
  }

  /** IdeogramAPI: a client bound to one API key. */
  class IdeogramAPI {
    const apiKey: string
    const baseUrl: string := Endpoint

    constructor (apiKey: string)
      ensures this.apiKey == apiKey
    {
      this.apiKey := apiKey;
    }

    /** The request generateLogo sends: a JSON POST to the endpoint carrying
        this client's key and the payload for the options. */
    function RequestFor(o: IdeogramOptions): (rq: HttpRequest)
      ensures rq.url == Endpoint && rq.httpMethod == "POST" && rq.apiKeyHeader == apiKey
      ensures rq.imageRequest == BuildImageRequest(o)
    {
      HttpRequest(baseUrl, "POST", apiKey, "application/json", BuildImageRequest(o))
    }

    /** generateLogo: never throws. A failed call, a non-2xx status, an
        unreadable body and an empty `data` array each become a failure
        result carrying only an error text; a response with image data
        becomes a success whose image comes from its first element and whose
        metadata records the prompt that was sent. */
    function GenerateLogo(o: IdeogramOptions, fetch: HttpRequest -> FetchOutcome, st: Stamp): (r: AdapterResult)
      ensures r.success <==>
        fetch(RequestFor(o)).Responded? && IsOk(fetch(RequestFor(o)).status) &&
        fetch(RequestFor(o)).body.ImageData? && fetch(RequestFor(o)).body.data.Some? &&
        |fetch(RequestFor(o)).body.data.value| > 0
      ensures !r.success ==> r.error.Some? && r.imageUrl == None && r.imageData == None && r.metadata == None
      ensures fetch(RequestFor(o)).FetchThrew? ==> r.error == Some(MessageOf(fetch(RequestFor(o)).thrown))
      ensures (fetch(RequestFor(o)).Responded? && !IsOk(fetch(RequestFor(o)).status)) ==>
        r.error == Some(HttpErrorMessage(fetch(RequestFor(o)).status, fetch(RequestFor(o)).statusText))
      ensures (fetch(RequestFor(o)).Responded? && IsOk(fetch(RequestFor(o)).status) &&
               fetch(RequestFor(o)).body.BodyThrew?) ==>
        r.error == Some(MessageOf(fetch(RequestFor(o)).body.thrown))
      ensures (fetch(RequestFor(o)).Responded? && IsOk(fetch(RequestFor(o)).status) &&
               fetch(RequestFor(o)).body.ImageData? && !r.success) ==> r.error == Some(NoImageData)
      ensures r.success ==>
        var d := fetch(RequestFor(o)).body.data.value[0];
        && r.imageUrl == d.url && r.imageData == d.b64Json && r.error == None
        && r.metadata.Some?
        && r.metadata.value.model == Ideogram
        && r.metadata.value.promptUsed == BuildImageRequest(o).prompt
        && r.metadata.value.timestamp == st.isoTimestamp
        && StartsWith(r.metadata.value.generationId, "ideogram_")
        && r.metadata.value.resolution == Some(OrDefault(d.resolution, DefaultResolution))
    {
      var payload := BuildImageRequest(o);
      match fetch(RequestFor(o))
      case FetchThrew(t) => Failure(MessageOf(t))
      case Responded(status, statusText, body) =>
        if !IsOk(status) then Failure(HttpErrorMessage(status, statusText))
        else
          match body
          case BodyThrew(t) => Failure(MessageOf(t))
          case ImageData(data) =>
            if data.Some? && |data.value| > 0 then
              var d := data.value[0];
              AdapterResult(true, d.url, d.b64Json, None,
                Some(Metadata(Ideogram, payload.prompt, st.isoTimestamp, GenerationId("ideogram", st),
                              Some(OrDefault(d.resolution, DefaultResolution)))))
            else Failure(NoImageData)
    }
  }

  /** The module-level `ideogramAPI` variable and the functions that use it. */
  class IdeogramClient {
    var instance: IdeogramAPI?

    constructor ()
      ensures instance == null
    {
      instance := null;
    }

    /** getIdeogramAPI: the first call that finds a non-empty key creates the
        client and keeps it; every later call returns that same client without
        looking at the key again. Without a key it throws and keeps nothing. */
    method GetIdeogramAPI(apiKeyVar: Option<string>) returns (r: Outcome<IdeogramAPI>)
      modifies this
      ensures old(instance) != null ==> r == Value(old(instance)) && instance == old(instance)
      ensures old(instance) == null && OrDefault(apiKeyVar, "") == "" ==>
        r == Raised(ErrorObject(MissingKeyMessage)) && instance == null
      ensures old(instance) == null && OrDefault(apiKeyVar, "") != "" ==>
        r.Value? && fresh(r.value) && r.value.apiKey == apiKeyVar.value && instance == r.value
    {
      if instance == null {
        if apiKeyVar.None? || apiKeyVar.value == "" {
          return Raised(ErrorObject(MissingKeyMessage));
        }
        instance := new IdeogramAPI(apiKeyVar.value);
      }
      r := Value(instance);
    }

    /** generateLogoWithIdeogram: the only way it throws is a missing key on
        the call that would have created the client; otherwise it returns what
        the (possibly reused) client's generateLogo returns. */
    method GenerateLogoWithIdeogram(o: IdeogramOptions, apiKeyVar: Option<string>,
                                    fetch: HttpRequest -> FetchOutcome, st: Stamp)
      returns (out: Outcome<AdapterResult>)
      modifies this
      ensures out.Raised? <==> old(instance) == null && OrDefault(apiKeyVar, "") == ""
      ensures out.Raised? ==> out.thrown == ErrorObject(MissingKeyMessage) && instance == null
      ensures out.Value? ==> instance != null && out.value == instance.GenerateLogo(o, fetch, st)
      ensures old(instance) != null ==> instance == old(instance)
      ensures old(instance) == null && out.Value? ==> fresh(instance) && instance.apiKey == apiKeyVar.value
    {
      var api := GetIdeogramAPI(apiKeyVar);
      match api
      case Raised(t) => out := Raised(t);
      case Value(client) => out := Value(client.GenerateLogo(o, fetch, st));
    }
  }

  /** getIdeogramModelInfo. */
  function GetIdeogramModelInfo(): (info: AdapterModelInfo)
    ensures info.creditsPerGeneration == CreditCost(Ideogram)
  {
    AdapterModelInfo(
      "Ideogram V2",
      "Premium AI model for high-quality, detailed logo generation",
      3,
      ["High-quality output",
       "Advanced customization",
       "Multiple style options",
       "Text rendering capability",
       "Photorealistic options"],
      ["Higher cost (3x credits)",
       "Slower generation (10-30 seconds)"])
  }
}

=== FILE: placeholder_logo.dfy ===
/** The placeholder image endpoint (src/app/api/placeholder-logo/route.ts):
    a fixed SVG badge showing the first three characters of the `prompt`
    query parameter, upper-cased. Reading the parameter out of the URL is
    not modelled; the handler receives its decoded value, if any. */
module PlaceholderLogo {
  import opened Common

  const DefaultPrompt := "Logo"
  const LabelLength := 3

  /** `searchParams.get('prompt') || 'Logo'`. */
  function PromptOrDefault(param: Option<string>): (p: string)
    ensures param == None || param == Some("") ==> p == DefaultPrompt
    ensures param.Some? && param.value != "" ==> p == param.value
  {
    OrDefault(param, DefaultPrompt)
  }

  /** `toUpperCase` on one character, for the ASCII letters; every other
      character is kept. */
  function UpperAscii(c: char): (u: char)
    ensures 'a' <= c <= 'z' ==> u as int == c as int - 32
    ensures !('a' <= c <= 'z') ==> u == c
  {
    if 'a' <= c <= 'z' then (c as int - 32) as char else c
  }

  function UpperAll(s: string): (u: string)
    ensures |u| == |s|
    ensures forall i :: 0 <= i < |s| ==> u[i] == UpperAscii(s[i])
    decreases |s|
  {
    if s == [] then [] else [UpperAscii(s[0])] + UpperAll(s[1..])
  }

  function Min(a: nat, b: nat): nat
  {
    if a <= b then a else b
  }

  /** `prompt.slice(0, 3).toUpperCase()`: the first min(3, |prompt|)
      characters, with lower-case ASCII letters raised; no lower-case ASCII
      letter is left in it. */
  function Label(prompt: string): (l: string)
    ensures |l| == Min(LabelLength, |prompt|)
    ensures forall i :: 0 <= i < |l| ==> l[i] == UpperAscii(prompt[i])
    ensures forall i :: 0 <= i < |l| ==> !('a' <= l[i] <= 'z')
  {
    UpperAll(prompt[..Min(LabelLength, |prompt|)])
  }

  /** Without a usable parameter the badge reads "LOG". */
  lemma DefaultLabel()
    ensures Label(PromptOrDefault(None)) == "LOG"
  {
    var l := Label(DefaultPrompt);
    assert DefaultPrompt[0] == 'L' && DefaultPrompt[1] == 'o' && DefaultPrompt[2] == 'g';
    assert l[0] == 'L' && l[1] == 'O' && l[2] == 'G';
  }

  /** The template text before and after the label. */
  const SvgHead :=
    "\n" +
    "    <svg width=\"400\" height=\"400\" viewBox=\"0 0 400 400\" xmlns=\"http://www.w3.org/2000/svg\">\n" +
    "      <defs>\n" +
    "        <linearGradient id=\"grad1\" x1=\"0%\" y1=\"0%\" x2=\"100%\" y2=\"100%\">\n" +
    "          <stop offset=\"0%\" style=\"stop-color:#9333ea;stop-opacity:1\" />\n" +
    "          <stop offset=\"100%\" style=\"stop-color:#3b82f6;stop-opacity:1\" />\n" +
    "        </linearGradient>\n" +
    "      </defs>\n" +
    "      \n" +
    "      <!-- Background circle -->\n" +
    "      <circle cx=\"200\" cy=\"200\" r=\"180\" fill=\"url(#grad1)\" />\n" +
    "      \n" +
    "      <!-- Inner circle -->\n" +
    "      <circle cx=\"200\" cy=\"200\" r=\"120\" fill=\"white\" opacity=\"0.9\" />\n" +
    "      \n" +
    "      <!-- Text -->\n" +
    "      <text x=\"200\" y=\"220\" font-family=\"Arial, sans-serif\" font-size=\"48\" font-weight=\"bold\" text-anchor=\"middle\" fill=\"#9333ea\">\n" +
    "        "
  const SvgTail :=
    "\n" +
    "      </text>\n" +
    "      \n" +
    "      <!-- Decorative elements -->\n" +
    "      <circle cx=\"200\" cy=\"120\" r=\"8\" fill=\"#3b82f6\" />\n" +
    "      <circle cx=\"200\" cy=\"280\" r=\"8\" fill=\"#3b82f6\" />\n" +
    "      <circle cx=\"120\" cy=\"200\" r=\"8\" fill=\"#3b82f6\" />\n" +
    "      <circle cx=\"280\" cy=\"200\" r=\"8\" fill=\"#3b82f6\" />\n" +
    "    </svg>\n" +
    "  "

  /** The SVG document for a prompt: the fixed template around the label,
      which can be read back out of it. */
  function Svg(prompt: string): (svg: string)
    ensures StartsWith(svg, SvgHead) && EndsWith(svg, SvgTail)
    ensures LabelIn(svg) == Label(prompt)
  {
    var svg := SvgHead + Label(prompt) + SvgTail;
    assert svg[..|SvgHead|] == SvgHead;
    assert svg[|svg| - |SvgTail|..] == SvgTail;
    assert svg[|SvgHead|..|svg| - |SvgTail|] == Label(prompt);
    svg
  }

  /** The label shown in a document produced by Svg. */
  function LabelIn(svg: string): string
  {
    if |svg| < |SvgHead| + |SvgTail| then "" else svg[|SvgHead|..|svg| - |SvgTail|]
  }

  /** Two prompts give the same document exactly when they give the same
      label: the document depends on nothing else. */
  lemma SameSvgIffSameLabel(p1: string, p2: string)
    ensures Svg(p1) == Svg(p2) <==> Label(p1) == Label(p2)
  {
    if Svg(p1) == Svg(p2) {
      assert LabelIn(Svg(p1)) == LabelIn(Svg(p2));
    }
  }

  datatype SvgResponse = SvgResponse(body: string, contentType: string, cacheControl: string)

  const SvgContentType := "image/svg+xml"
  const CacheForAnHour := "public, max-age=3600"

  /** GET /api/placeholder-logo: always answers with the SVG document for the
      parameter (or its default), served as SVG and cacheable for an hour. */
  function Get(promptParam: Option<string>): (r: SvgResponse)
    ensures r.contentType == SvgContentType && r.cacheControl == CacheForAnHour
    ensures LabelIn(r.body) == Label(PromptOrDefault(promptParam))
  {
    SvgResponse(Svg(PromptOrDefault(promptParam)), SvgContentType, CacheForAnHour)
  }
}

=== FILE: pricing.dfy ===
/** The pricing table: what each image model costs per generation, what each
    subscription tier grants per month, and the two pure rules built on them
    (src/lib/pricing.ts). */
module Pricing {
  import opened Common

  /** The image-generation models a request may name. */
  datatype AIModel = Gemini25 | Ideogram

  /** The model identifiers as they appear in requests and stored rows. */
  function ModelId(m: AIModel): string
  {
    match m
    case Gemini25 => "gemini-2.5"
    case Ideogram => "ideogram"
  }

  /** Reads a model identifier; anything but the two known names is rejected. */
  function ParseModel(s: string): (r: Option<AIModel>)
    ensures r.Some? ==> ModelId(r.value) == s
    ensures forall m: AIModel :: ModelId(m) == s ==> r == Some(m)
  {
    if s == "gemini-2.5" then Some(Gemini25)
    else if s == "ideogram" then Some(Ideogram)
    else None
  }

  /** The balance value that means "no limit". */
  const Unlimited: int := -1

  /** A credit balance: either the unlimited sentinel or a count of credits. */
  type Credits = c: int | c >= Unlimited

  /** CREDIT_COSTS: credits charged for one generation. */
  function CreditCost(m: AIModel): (cost: nat)
    ensures cost > 0
    ensures m == Gemini25 ==> cost == 1
    ensures m == Ideogram ==> cost == 3
  {
    match m
    case Gemini25 => 1
    case Ideogram => 3
  }

  /** The premium model costs three times the baseline model. */
  lemma PremiumCostsThreeTimesBaseline()
    ensures CreditCost(Ideogram) == 3 * CreditCost(Gemini25)
  {
  }

  datatype Tier = Basic | Pro | Studio | Enterprise

  /** One row of SUBSCRIPTION_TIERS. */
  datatype TierPlan = TierPlan(
    name: string,
    price: nat,
    monthlyCredits: Credits,
    popular: bool,
    features: seq<string>,
    stripeProductId: string,
    stripePriceId: string)

  /** The wording that follows the count in a tier's first two features. */
  const BaselineSuffix := " logo generations (Gemini 2.5)"
  const PremiumSuffix := " premium generations (Ideogram)"

  /** SUBSCRIPTION_TIERS: only the enterprise tier uses the unlimited sentinel,
      and only the pro tier is flagged as popular. */
  function Plan(t: Tier): (p: TierPlan)
    ensures p.monthlyCredits == Unlimited <==> t == Enterprise
    ensures p.popular <==> t == Pro
    ensures |p.features| >= 2
  {
    match t
    case Basic =>
      TierPlan("Basic", 9, 50, false,
        ["50" + BaselineSuffix,
         "~16" + PremiumSuffix,
         "Standard exports (PNG, JPG)",
         "Basic templates",
         "Email support",
         "Commercial license"],
        "prod_basic", "price_basic_monthly")
    case Pro =>
      TierPlan("Pro", 24, 150, true,
        ["150" + BaselineSuffix,
         "~50" + PremiumSuffix,
         "HD exports + SVG",
         "Premium templates",
         "Priority support",
         "Advanced editor",
         "Brand guidelines"],
        "prod_pro", "price_pro_monthly")
    case Studio =>
      TierPlan("Studio", 49, 500, false,
        ["500" + BaselineSuffix,
         "~166" + PremiumSuffix,
         "4K exports + all formats",
         "Unlimited templates",
         "White-label solution",
         "Dedicated support",
         "Team collaboration"],
        "prod_studio", "price_studio_monthly")
    case Enterprise =>
      TierPlan("Enterprise", 199, Unlimited, false,
        ["Unlimited logo generations",
         "All AI models included",
         "API access with 10,000 calls/month",
         "Custom branding",
         "Priority queue",
         "Dedicated account manager",
         "Custom integrations",
         "SLA guarantee"],
        "prod_enterprise", "price_enterprise_monthly")
  }

  /** calculateGenerations: how many generations a balance pays for. The
      sentinel passes through; a finite balance is divided by the cost and
      rounded down, so the result is the largest g with g * cost <= credits. */
  function CalculateGenerations(credits: Credits, m: AIModel): (g: int)
    ensures credits == Unlimited ==> g == Unlimited
    ensures credits >= 0 ==> g >= 0 && g * CreditCost(m) <= credits < (g + 1) * CreditCost(m)
  {
    if credits == Unlimited then Unlimited else credits / CreditCost(m)
  }

  /** canAffordGeneration: the unlimited sentinel affords every model; any
      other balance affords a model exactly when it covers the model's cost. */
  function CanAffordGeneration(available: Credits, m: AIModel): (b: bool)
    ensures available == Unlimited ==> b
    ensures available != Unlimited ==> (b <==> available >= CreditCost(m))
  {
    if available == Unlimited then true else available >= CreditCost(m)
  }

  /** The two pricing rules agree: a finite balance affords a model exactly
      when it pays for at least one generation of it. */
  lemma {:induction false} AffordableIffOneGeneration(credits: Credits, m: AIModel)
    requires credits >= 0
    ensures CanAffordGeneration(credits, m) <==> CalculateGenerations(credits, m) >= 1
  {
    var g := CalculateGenerations(credits, m);
    var cost := CreditCost(m);
    if g >= 1 {
      assert g * cost >= cost;
    } else {
      assert g == 0;
    }
  }

  /** A balance that affords the premium model also affords the baseline. */
  lemma PremiumAffordableImpliesBaseline(credits: Credits)
    ensures CanAffordGeneration(credits, Ideogram) ==> CanAffordGeneration(credits, Gemini25)
  {
  }

  /** The generation counts advertised by the basic, pro and studio tiers
      ("50", "150", "500" baseline and "~16", "~50", "~166" premium) are the
      ones calculateGenerations gives for each tier's monthly credits. */
  lemma AdvertisedCountsMatchPricing(t: Tier)
    requires t != Enterprise
    ensures Plan(t).features[0] ==
      NatToString(CalculateGenerations(Plan(t).monthlyCredits, Gemini25)) + BaselineSuffix
    ensures Plan(t).features[1] ==
      "~" + NatToString(CalculateGenerations(Plan(t).monthlyCredits, Ideogram)) + PremiumSuffix
  {
    PrintedCounts();
    match t
    case Basic =>
      assert CalculateGenerations(50, Gemini25) == 50 && CalculateGenerations(50, Ideogram) == 16;
      assert "~" + NatToString(16) == "~16";
    case Pro =>
      assert CalculateGenerations(150, Gemini25) == 150 && CalculateGenerations(150, Ideogram) == 50;
      assert "~" + NatToString(50) == "~50";
    case Studio =>
      assert CalculateGenerations(500, Gemini25) == 500 && CalculateGenerations(500, Ideogram) == 166;
      assert "~" + NatToString(166) == "~166";
  }

  /** The decimal texts of the advertised counts. */
  lemma PrintedCounts()
    ensures NatToString(16) == "16" && NatToString(50) == "50" && NatToString(150) == "150"
    ensures NatToString(166) == "166" && NatToString(500) == "500"
  {
    DecimalText(1, 6); DecimalText(5, 0); DecimalText(1, 5); DecimalText(15, 0);
    DecimalText(50, 0); DecimalText(16, 6);
  }

  /** One step of printing a number: its leading digits, then its last one. */
  lemma DecimalText(n: nat, d: nat)
    requires 0 < n && d < 10
    ensures NatToString(10 * n + d) == NatToString(n) + [DigitChar(d)]
  {
    assert (10 * n + d) / 10 == n && (10 * n + d) % 10 == d;
  }

  /** The enterprise tier advertises no count: it carries the sentinel, which
      calculateGenerations passes through for every model. */
  lemma EnterpriseIsUnlimited(m: AIModel)
    ensures CalculateGenerations(Plan(Enterprise).monthlyCredits, m) == Unlimited
    ensures CanAffordGeneration(Plan(Enterprise).monthlyCredits, m)
    ensures Plan(Enterprise).features[0] == "Unlimited logo generations"
  {
  }
}
